=== FILE: README.md ===
# Book tracker — a Dafny model of its data core

`book_tracker.py` is a menu-driven reading log. The log is a table of books, each with
a title, an author, a page count, a genre and a finish date. A genre registry maps each
genre to a chart colour, and the charts are drawn from the log. This project models the
part of the program that decides what is stored and what is drawn:

- **Genre registry** (`GenreRegistry`, `GenreMenu`, `OrderInput`, `Perm`). The registry is an
  ordered list of genre/colour entries in which no name appears twice. It supports:
  - adding a genre;
  - the rename-or-delete dialogue, with its choice, target name, new name and confirmation;
  - reordering from a typed reply such as `3,1,2`, checked to name every current position exactly once.
- **Row store** (`Books`, `Unique`). The row store supports:
  - appending a book;
  - importing another table: required columns, concatenation, then `drop_duplicates()`;
  - selecting a row by its listed number and then editing or deleting it. In an edit, a blank
    answer keeps the field. A deletion needs a "y" confirmation.
- **Aggregations** (`Monthly`, `Charts`, `Sums`). These compute what each chart plots:
  - the monthly page bars of `plot_by_genre`, including its case-insensitive genre filter and its colour choice;
  - the month × genre stacked table of `plot_progress`, with normalised genres limited to the registry;
  - the genre counts of `plot_genre_distribution`;
  - the year and quarter selection of `show_genre_summary_chart_filtered`, with both of its charts.
- **Text handling** (`Text`). This covers the parts of Python's `str.strip`, `lower`, `title`,
  `split` and `int()` that the code relies on.

An operation that the program can refuse returns a `Result`; `Err` carries the reason the
program prints, and the stored data stays as it was, exactly as the program returns without
saving. An operation whose refusals all end in "keep what you had" (a reorder reply, the edit or
delete action) returns the registry or table itself, unchanged in those cases.

Dates are abstract. A row's finish date is `Option<Date>`, where `None` stands for the
missing value pandas produces for an unparseable date. Parsing date text is a function
parameter (`DateParser`).

Points where the code behaves in a way a reader might not expect, and which the model follows:
- **Renaming.** The code pops the old key and assigns the new one (`book_tracker.py:362`), so a
  renamed genre moves to the end of the order. `GenreRegistry.Rename` models the move.
- **Errors in `add_book`.** `add_book` calls `int()` on the page count outside any `try`
  (`book_tracker.py:79`), so a bad page count stops the program. The model reports that case as
  `Err(InvalidNumber)` and stores nothing, which is also the state the log is left in.
- **The filtered summary chart.** Unlike `plot_progress`, it groups by the raw genre text: it does not
  strip, title-case or check it against the registry (`book_tracker.py:258`, `269`).
  `Charts.PeriodDistribution` and `Charts.PeriodStacked` do the same.
- **Empty genres.** A book saved with an empty genre is written as an empty field, and `read_csv`
  reads that field back as a missing value. `value_counts`, `groupby` and `isin` all leave such rows
  out, so the charts never show an empty genre. `Charts.WithGenre` selects the rows the charts see.
  When every genre cell of the log is empty, `read_csv` gives the whole column a numeric type and
  the `.str` calls at `book_tracker.py:49`, `134` and `159` raise; the model reports that case as
  `Err(NoGenres)`.

## Model

| member | source | states |
|---|---|---|
| GenreRegistry.ColorFor | book_tracker.py:143 | an unregistered name reads back the caller's fallback colour; a registered name reads back a colour it is registered with, and with no repeated names that is its only colour |
| GenreRegistry.Find | book_tracker.py:324 | a name is found exactly when it is registered, at its first entry |
| GenreRegistry.Add | book_tracker.py:320-328 | adding a registered name fails with AlreadyExists and changes nothing; otherwise the entry is appended at the end and the registry stays free of repeated names |
| GenreRegistry.AddLookup | book_tracker.py:323-326 | after an add, the new genre reads back its colour and every other genre keeps its colour |
| GenreRegistry.Delete | book_tracker.py:353-368 | deleting an unregistered name fails with NotFound; otherwise exactly the entry of that name is cut out, and the name is gone |
| GenreRegistry.DeleteLookup | book_tracker.py:368 | after a delete, every other genre reads back the colour it had |
| GenreRegistry.Rename | book_tracker.py:353-362 | rename succeeds exactly when the old name is registered and the new one is not (NotFound and AlreadyExists otherwise); the old entry is removed and the new name is appended with the old colour |
| GenreRegistry.RenameLookup | book_tracker.py:357-362 | after a rename, the new name reads back the old colour, the old name falls back to the default, other genres are unchanged, and no name appears twice |
| GenreRegistry.Reorder | book_tracker.py:387-392 | reordering succeeds exactly when the indices name every position once; then position i holds the entry at index i of the old order |
| GenreRegistry.ReorderBijection | book_tracker.py:388-392 | a reorder keeps the registry free of repeated names, keeps the same entries, and is undone by the inverse permutation |
| GenreMenu.ParseChoice | book_tracker.py:345-349 | after strip() and lower(), "r" picks rename and "d" picks delete, so the stripped answers "r" or "R" rename, "d" or "D" delete, and any other answer picks nothing |
| GenreMenu.RenameOrDelete | book_tracker.py:340-373 | the dialogue refuses a choice other than r/d (InvalidChoice) and an unregistered target (NotFound), and a rename also refuses a taken new name; a rename of a registered target is exactly the registry rename to the stripped new name; a confirmed delete is exactly the registry delete of the stripped target; an unconfirmed delete changes nothing |
| GenreMenu.RenamedNames | book_tracker.py:362 | a successful rename keeps the number of genres, registers the new name, and drops the old one |
| GenreMenu.MenuRenameColors | book_tracker.py:357-362 | renaming through the dialogue moves the target's colour to the stripped new name and leaves other genres' colours alone |
| GenreMenu.MenuDeleteColors | book_tracker.py:365-368 | a confirmed deletion through the dialogue leaves every other genre's colour unchanged |
| Perm.PermutationMultiset | book_tracker.py:388 | "the sorted indices equal range(n)" holds exactly when every position 0..n-1 is named exactly once |
| Perm.CheckOrder | book_tracker.py:388 | the one-pass order check accepts exactly the index lists whose multiset equals that of range(n) |
| Perm.Inverse | book_tracker.py:392 | every permutation has an inverse that undoes it in both directions |
| OrderInput.OrderRoundTrip | book_tracker.py:386-387 | the reply typed for a 1-based order parses back to that order shifted to 0-based |
| OrderInput.ZeroBased | book_tracker.py:387 | the list parses exactly when every piece is an integer; then it has one index per piece, each one less than the piece's number |
| OrderInput.ParseOrder | book_tracker.py:386-387 | the stripped reply split on commas parses exactly when every piece is an integer, giving one 0-based index per piece |
| OrderInput.BlankOrderFails | book_tracker.py:386-387 | a blank or whitespace-only reply is not a number list, because int('') raises |
| OrderInput.ReorderFromText | book_tracker.py:385-398 | an unparseable reply and a reply that is not a permutation both leave the registry as it was; otherwise the new order places the entry at each typed index |
| OrderInput.FormattedReorder | book_tracker.py:384-395 | for any typed 1-based order: a permutation reorders the registry by it, anything else leaves the registry unchanged |
| OrderInput.RepeatedPosition | book_tracker.py:388-390 | a reply that names one position twice leaves the registry unchanged |
| Books.AddBook | book_tracker.py:76-98 | adding fails with InvalidNumber on a page count int() refuses and with InvalidDate on a date the parser refuses; otherwise exactly one row holding the parsed values is appended after the existing rows |
| Books.AddBookRoundTrip | book_tracker.py:79-98 | adding a book whose page count is typed as its decimal text stores exactly that book once more |
| Books.Import | book_tracker.py:102-112 | the import with both tables' dates in one form (the corrected import; the code as written is Books.ImportAsWritten): it fails without all five required columns; otherwise the result holds no repeated row, every existing and imported row, and nothing else, in the order of each row's first occurrence in the log followed by the imported table |
| Books.ImportIdempotent | book_tracker.py:112 | importing the same table a second time changes nothing |
| Books.ImportKeepsLog | book_tracker.py:112 | a log without repeated rows keeps its rows, in order, at the head of the result |
| Books.ImportAsWritten | book_tracker.py:110-112 | the import as the code runs it also fails only on missing columns, keeps every row of both tables, and adds no row drawn from neither |
| Books.FirstImport | book_tracker.py:110-112 | importing one book into an empty log stores that book |
| Books.SecondImport | book_tracker.py:110-112 | importing a dated book that is already in the log stores it a second time |
| Books.ReimportDuplicates | book_tracker.py:110-112 | two imports of the same dated book leave it twice as written and once with the corrected import |
| Books.SelectRow | book_tracker.py:402-417 | an empty log gives NoData, a number int() refuses gives InvalidNumber, a number outside 1..rows gives IndexOutOfRange; otherwise the 0-based row number |
| Books.SelectListed | book_tracker.py:408-417 | typing the number a row is listed under selects that row |
| Books.EditText | book_tracker.py:425-442 | a blank answer keeps the current text; any other answer replaces it with its stripped form |
| Books.EditPages | book_tracker.py:436-440 | an answer int() refuses (including blank) keeps the page count; otherwise it becomes the parsed number |
| Books.EditDate | book_tracker.py:443-447 | a blank or unparseable answer keeps the date; otherwise it becomes the parsed date |
| Books.ApplyEdit | book_tracker.py:431-447 | each of title, author and genre takes its stripped answer unless that is blank; the page count takes the number int() reads from its answer, otherwise it is kept; the date takes the parsed answer when it is non-blank and parses, otherwise it is kept |
| Books.BlankEditKeeps | book_tracker.py:424-447 | leaving every prompt blank keeps the book as it was |
| Books.EditIdempotent | book_tracker.py:424-447 | giving the same answers twice has the effect of giving them once |
| Books.EditStores | book_tracker.py:424-447 | filling every prompt stores exactly the answered book |
| Books.PagesAnswer | book_tracker.py:436-438 | a page count typed as its decimal text is stored as that number |
| Books.DeleteRow | book_tracker.py:454 | drop plus reset_index removes row i and shifts the later rows up by one |
| Books.DeleteRestore | book_tracker.py:454 | the deleted row put back at its place restores the table |
| Books.ReplaceRow | book_tracker.py:432-446 | an edit changes row i only |
| Books.ApplyAction | book_tracker.py:419-459 | an edit replaces the selected row with its edited form; a confirmed delete removes it; a declined delete or an unknown action leaves the table as it was |
| Books.EditOrDelete | book_tracker.py:400-459 | the operation fails exactly when row selection fails, and with its error; otherwise the chosen action is applied to the selected row |
| Books.DeleteListed | book_tracker.py:410-455 | a confirmed deletion of a listed row succeeds and removes that row and nothing else |
| Books.EditListed | book_tracker.py:410-449 | editing a listed row replaces exactly that row with its edited form |
| Unique.DropDuplicates | book_tracker.py:112 | the result has no repeated row, and holds exactly the rows of the input |
| Unique.DropOrder | book_tracker.py:112 | the kept rows appear in the order of their first occurrences |
| Unique.DropIdempotent | book_tracker.py:112 | dropping duplicates twice is dropping them once |
| Unique.DropAppend | book_tracker.py:112 | dropping duplicates of the log before appending rows changes nothing afterwards |
| Unique.DropAbsorb | book_tracker.py:112 | rows that all occur earlier add nothing |
| Unique.DropDuplicatesScan | book_tracker.py:112 | a single scan with a seen-set computes the same result |
| Monthly.AddTo | book_tracker.py:64-65 | adding pages to a month keeps the bars chronological, adds exactly those pages to that month's bar, and opens the bar if it is missing |
| Monthly.MonthlyPages | book_tracker.py:64-65 | one bar per month that has a dated row, in chronological order, each holding that month's pages; the bars together hold the pages of all dated rows |
| Monthly.BarIsMonthSum | book_tracker.py:65 | each bar equals the page total of the rows finished in its month |
| Monthly.Filter | book_tracker.py:49 | a boolean mask keeps exactly the copies of the rows it selects, and the selection is empty exactly when it keeps no row |
| Monthly.FilterMember | book_tracker.py:49 | a row is selected exactly when it is in the table and the mask keeps it |
| Charts.GenreRows | book_tracker.py:44-53 | a blank filter keeps every row; otherwise exactly the rows whose genre equals the filter after lower() and strip() |
| Charts.PlotByGenre | book_tracker.py:31-65 | fails on an empty log (NoData), on a filter over a log whose genre cells are all empty (NoGenres), and on a filter no genre matches (NoData); otherwise the bars are the monthly page totals of the selected rows, coloured steelblue for all genres and, for a filter, with the title-cased filter's registered colour or darkorange |
| Charts.GenreCaseInsensitive | book_tracker.py:44-57 | the genre chart does not depend on the case of the typed filter |
| Charts.Stacked | book_tracker.py:140-143 | there is one column per genre of a dated row and no other column, each coloured from the registry or gray; there is one stack per month; every cell is the pages of that genre in that month |
| Charts.CellsSum | book_tracker.py:140 | the cells of a month add up to that month's page total |
| Charts.StackHeights | book_tracker.py:140 | each stack is as high as the month's bar in the all-genres chart |
| Charts.CellIsMonthPages | book_tracker.py:140 | a genre's cell is that month's bar in the chart of that genre's rows alone |
| Charts.NormalizeGenres | book_tracker.py:134 | every row keeps its place and its other fields, and its genre becomes the stripped, title-cased genre, which normalising again leaves alone |
| Charts.WithGenre | book_tracker.py:165 | keeps exactly the copies of the rows whose genre cell holds text, the rows value_counts and groupby count |
| Charts.NormalizedFrom | book_tracker.py:134 | every normalised row is a log row with its genre stripped and title-cased, and its genre is already normal |
| Charts.ProgressRows | book_tracker.py:133-137 | the progress chart's rows are the log rows with a genre whose normalised genre is registered, each carried with that normalised genre, every copy kept: a row occurs as often as among the normalised rows when its genre is registered, and not at all otherwise |
| Charts.ProgressIdempotent | book_tracker.py:134-137 | with no empty name registered, normalising and filtering a second time changes nothing |
| Charts.ProgressChart | book_tracker.py:125-143 | fails exactly on an empty log (NoData) and on a log whose genre cells are all empty (NoGenres); otherwise the stacked table of the registered rows, every column a registered genre carrying its own colour |
| Charts.ColumnRegistered | book_tracker.py:137-143 | a column of the progress chart takes its registered colour, never the gray fallback |
| Charts.Tally | book_tracker.py:165 | value_counts gives one slice per distinct genre and none for absent genres, each slice counting that genre's rows |
| Charts.TallyTotal | book_tracker.py:165 | the slices together count every row once |
| Charts.NormalGenres | book_tracker.py:159 | every genre is stripped and title-cased, in place |
| Charts.GenreDistribution | book_tracker.py:157-166 | fails exactly on an empty log (NoData) and on a log whose genre cells are all empty (NoGenres); otherwise there is at least one slice, one slice per label, each counting exactly the rows with a genre whose normalised genre is that label; the counts add up to the rows with a genre; every label is a normalised genre, and every such row's normalised genre has a slice |
| Charts.PieColors | book_tracker.py:166 | each slice is coloured with its genre's registered colour, and grey when the genre is not registered |
| Charts.UnreadableMatchesNone | book_tracker.py:47-49 | a log whose genre cells are all empty has no row matching a non-blank filter |
| Charts.QuarterChoice | book_tracker.py:236-244 | a blank answer skips the quarter; a stripped answer int() accepts in 1..4 selects that quarter; anything else fails with InvalidQuarter |
| Charts.QuarterRoundTrip | book_tracker.py:239-241 | a quarter typed as its number is accepted exactly when it lies in 1..4 |
| Charts.YearRows | book_tracker.py:230-234 | selects exactly the copies of the rows finished in the year; undated rows never match |
| Charts.QuarterOf | book_tracker.py:246 | a calendar month lies in quarter 1..4, among that quarter's three months |
| Charts.QuarterRows | book_tracker.py:246 | selects exactly the copies of the rows finished in that quarter of the year, and is empty exactly when no row is |
| Charts.SelectionEmpty | book_tracker.py:232-249 | a selection holding every copy of a period's rows is empty exactly when no row of the log falls in that period |
| Charts.PeriodRows | book_tracker.py:215-250 | fails with NoData on an empty log, InvalidYear on a stripped year int() refuses, NoData when no row lies in the year, InvalidQuarter on a bad quarter once the year has rows, and NoData when no row lies in the chosen quarter; it succeeds exactly when the log is non-empty, both answers parse and some row lies in the chosen period, and then gives the selection of the period |
| Charts.YearSelection | book_tracker.py:229-250 | once the year is read: NoData when no row lies in it, InvalidQuarter on a bad quarter answer when some row does, NoData when no row lies in the chosen quarter; otherwise every row of the period, and only those |
| Charts.QuartersPartition | book_tracker.py:230-246 | with calendar months, the four quarters split a year's rows between them |
| Charts.PeriodDistribution | book_tracker.py:257-259 | fails exactly when the period selection does; otherwise one slice per raw genre among the selected rows with a genre, each counting exactly that genre's rows, the counts adding up to those rows |
| Charts.PeriodStacked | book_tracker.py:267-271 | fails exactly when the period selection does; otherwise the stacked table of the selected rows with a genre, none of its columns the empty genre |
| Text.Trim | book_tracker.py:44 | strip() gives the slice of its argument between leading and trailing whitespace, and it starts and ends with non-whitespace |
| Text.Lower | book_tracker.py:48 | lower() keeps the length and each character's upper-case form while leaving no upper-case letter, so A..Z become a..z and every other character is unchanged |
| Text.Title | book_tracker.py:134 | title() keeps the length and the whitespace and compares case-insensitively equal to its argument |
| Text.TitleCase | book_tracker.py:134 | in title case a letter that starts a word is upper case and a letter after a letter is lower case |
| Text.TitleFacts | book_tracker.py:134 | title-casing twice is title-casing once, and lower() does not see the difference |
| Text.Normalize | book_tracker.py:134 | strip().title() has no surrounding whitespace, is as long as the stripped genre, and compares case-insensitively equal to it |
| Text.Fold | book_tracker.py:49 | the filter key lower().strip() is the lower-cased stripped text, with no surrounding whitespace |
| Text.Confirms | book_tracker.py:366 | an answer confirms exactly when, stripped, it is "y" or "Y" |
| Text.Split | book_tracker.py:387 | split(sep) gives at least one piece, and no piece contains the separator |
| Text.SplitCount | book_tracker.py:387 | split(sep) gives one piece more than the text has separators, and text without the separator is one piece |
| Text.TrimIdempotent | book_tracker.py:48 | stripping twice is stripping once |
| Text.LowerTrim | book_tracker.py:48-49 | lower() and strip() commute |
| Text.NormalizeIdempotent | book_tracker.py:134 | stripping and title-casing twice is doing it once |
| Text.FoldNormalize | book_tracker.py:49-57 | a title-cased genre still matches the same filter |
| Text.SplitJoin | book_tracker.py:387 | splitting joined parts on a separator they do not contain gives the parts back |
| Text.JoinSplit | book_tracker.py:387 | joining the pieces of a split restores the text |
| Text.ParseInt | book_tracker.py:79 | int() fails on text holding one of the ASCII separators U+001C..U+001F; otherwise it accepts exactly an optional sign followed by digits once strip() has removed the surrounding whitespace, and gives their value, negated after a minus sign |
| Text.IntTrimAgrees | book_tracker.py:79 | on text without separators int() skips exactly the whitespace strip() removes |
| Text.ParseTrim | book_tracker.py:223-225 | stripping an answer before int() reads the same number when the answer holds no separator |
| Text.SeparatorRefused | book_tracker.py:79 | a leading file separator makes int() fail although strip() would remove it |
| Text.IntRoundTrip | book_tracker.py:79 | an integer written in decimal parses back to itself |

## Left out

- Terminal prompts and messages, the main menu (`book_tracker.py:464-521`) and `list_books`. A dialogue is
  modelled as a function of the answers it reads.
- Drawing (`matplotlib` calls, titles and axis labels) and the colour picker `choose_color_gui`
  (`book_tracker.py:332-338`). The picked colour is a parameter of `GenreRegistry.Add`.
- Reading and writing `book_log.csv` and `genre_colors.json`. The log and the registry are values
  handed in and returned. This also leaves out the module-level dictionary that `main` shadows, and
  the `try`/`except` around reading an import file.
- The date parsers (`strptime`, `to_datetime`): `DateParser` is a parameter, and a date pandas
  cannot read is `None`.
- Unicode case rules and the non-ASCII digits and underscores that `int()` accepts. `lower`, `title`
  and `int()` are modelled on ASCII. `strip` uses Python's whitespace set; `int()` skips that set
  without the ASCII separators U+001C..U+001F.
- `show_avg_pages_per_genre_per_quarter` (`book_tracker.py:283-310`): it computes a floating-point mean.
- `show_genre_summary_chart` (`book_tracker.py:175-214`): its two charts are the computations of
  `Charts.GenreDistribution` and `Charts.ProgressChart` without the registry filter.
- Columns other than the five required ones in an imported table.
- The edit/delete action prompt: "1" and "2" are the cases of `Books.Action`, and any other answer is `OtherAction`.
- Charts.Stacked: the column order is not fixed. pandas sorts the genre labels; the contract states
  which columns exist and every cell.
- Charts.Tally: the slice order is not fixed. value_counts sorts by count; the contract states
  every slice's count.
- Books.EditDate: an answer that pandas reads as a missing date ("nan", "NaT") clears the stored date
  in the code; the model's parser gives `None` for it, and the model keeps the old date.
- Charts.WithGenre: only the empty genre cell reads back as missing. `read_csv` also reads cells such as
  "NA", "nan", "None" or "null" as missing; the model keeps those as genre text.
- Charts.PlotByGenre: when no selected row is dated, the model returns no bars. pandas has nothing to
  plot in that case and raises.
- Charts.GenresUnreadable: only a Genre column with every cell empty is treated as unreadable. A column
  whose every cell reads as a number also gets a numeric type and makes the `.str` calls raise; the
  model keeps those genres as text.
- Charts.PeriodDistribution: when no selected row has a genre, the model gives no slices; what
  matplotlib does with an empty pie is not modelled.
- Charts.PeriodStacked: when every selected row lacks a genre, the model returns an empty table. pandas has
  nothing to plot in that case and raises.
- Charts.ProgressIdempotent: it is stated for registries without an empty name. With "" registered, a
  whitespace-only genre normalises to "" and is kept, but a second pass would drop it as missing.
- Charts.ProgressChart: the model returns an empty table when no row has a registered genre.
  pandas has nothing to plot in that case and raises.

## Findings

| source | as written | input that shows it | evidently intended | confidence | as-written member | corrected member |
|---|---|---|---|---|---|---|
| book_tracker.py:110-112 | the log read back from CSV holds dates as text, while the imported table's dates are parsed into timestamps, so `drop_duplicates` never sees a dated log row as equal to the same imported row | import a file holding one dated book into an empty log, then import the same file again: the log holds the book twice | importing a file whose rows are already logged adds nothing | medium, not executed | Books.SecondImport | Books.ImportIdempotent |

=== FILE: base.dfy ===
/** Shared result types: the outcome of every operation that the tracker can reject. */
module Base {

  datatype Option<+T> = None | Some(value: T)

  /** The reasons an operation is turned down; on any of them the stored data stays as it was. */
  datatype Error =
    | AlreadyExists      // genre name taken (add, rename)
    | NotFound           // genre name absent (rename, delete)
    | NotPermutation     // reorder list does not name every position exactly once
    | InvalidNumber      // text that Python's int() refuses
    | InvalidDate        // date text the date parser refuses
    | MissingColumns     // imported table lacks a required column
    | InvalidYear        // year text that int() refuses
    | InvalidQuarter     // quarter text not an integer in 1..4
    | NoData             // nothing to select from, or the selection is empty
    | IndexOutOfRange    // row number outside the table
    | InvalidChoice      // menu answer that names none of the offered actions
    | NoGenres           // every genre cell of the log is empty, so the genre column holds no text

  datatype Result<+T> = Ok(value: T) | Err(error: Error)
}

=== FILE: books.dfy ===
/** The book log: a table of rows (title, author, pages, genre, date finished) and the four
    operations that change it — appending one book, importing another table, editing a row and
    deleting a row. Dates are already parsed; a date parser is passed in where the log parses text. */
module Books {
  import opened Base
  import opened Text
  import opened Unique

  datatype Date = Date(year: int, month: int, day: int)

  /** One row of the log. A missing or unreadable date is None (pandas' NaT). */
  datatype Book = Book(title: string, author: string, pages: int, genre: string, finished: Option<Date>)

  type Table = seq<Book>

  /** A date parser: "%Y-%m-%d" for a new book, pandas' to_datetime for an edit. */
  type DateParser = string -> Option<Date>

  /** The columns an imported table must carry. */
  const RequiredColumns: set<string> := {"Title", "Author", "Pages", "Genre", "Date Finished"}

  // ---------------------------------------------------------------------------
  // add_book
  // ---------------------------------------------------------------------------

  /** Appends one book. The page count goes through int() first, then the date through the parser;
      the first of the two that fails decides the error, and the log is left as it was. */
  function AddBook(rows: Table, title: string, author: string, pagesText: string, genre: string,
                   dateText: string, parse: DateParser): (r: Result<Table>)
    ensures r.Ok? <==> ParseInt(pagesText).Some? && parse(dateText).Some?
    ensures ParseInt(pagesText).None? ==> r == Err(InvalidNumber)
    ensures ParseInt(pagesText).Some? && parse(dateText).None? ==> r == Err(InvalidDate)
    ensures r.Ok? ==> |r.value| == |rows| + 1 && r.value[..|rows|] == rows
    ensures r.Ok? ==>
      r.value[|rows|] == Book(title, author, ParseInt(pagesText).value, genre, Some(parse(dateText).value))
  {
    match ParseInt(pagesText)
    case None => Err(InvalidNumber)
    case Some(pages) =>
      match parse(dateText)
      case None => Err(InvalidDate)
      case Some(d) => Ok(rows + [Book(title, author, pages, genre, Some(d))])
  }

  /** A book typed in with its page count written out in decimal is stored with exactly that page
      count, and the log gains that one row and nothing else. */
  lemma AddBookRoundTrip(rows: Table, title: string, author: string, pages: int, genre: string,
                         dateText: string, parse: DateParser)
    requires parse(dateText).Some?
    ensures AddBook(rows, title, author, IntToString(pages), genre, dateText, parse).Ok?
    ensures multiset(AddBook(rows, title, author, IntToString(pages), genre, dateText, parse).value)
            == multiset(rows) + multiset{Book(title, author, pages, genre, parse(dateText))}
  {
    IntRoundTrip(pages);
    var r := AddBook(rows, title, author, IntToString(pages), genre, dateText, parse).value;
    assert r == rows + [Book(title, author, pages, genre, parse(dateText))];
  }

  // ---------------------------------------------------------------------------
  // import_from_csv
  // ---------------------------------------------------------------------------

  /** Appends an imported table and drops rows equal to an earlier row. A table that lacks one of
      the required columns is refused. The rows kept appear in the order of their first occurrence
      in the log followed by the imported table, the order the listing numbers them by. */
  function Import(existing: Table, columns: set<string>, imported: Table): (r: Result<Table>)
    ensures r.Err? <==> !(RequiredColumns <= columns)
    ensures r.Err? ==> r.error == MissingColumns
    ensures r.Ok? ==> NoDup(r.value)
    ensures r.Ok? ==> forall i :: 0 <= i < |existing| ==> existing[i] in r.value
    ensures r.Ok? ==> forall i :: 0 <= i < |imported| ==> imported[i] in r.value
    ensures r.Ok? ==> forall i :: 0 <= i < |r.value| ==> r.value[i] in existing || r.value[i] in imported
    ensures r.Ok? ==> forall i, j :: 0 <= i < j < |r.value| ==>
      FirstIndex(existing + imported, r.value[i]) < FirstIndex(existing + imported, r.value[j])
  {
    if !(RequiredColumns <= columns) then Err(MissingColumns)
    else
      var all := existing + imported;
      var r := DropDuplicates(all);
      DropOrder(all);
      assert forall i :: 0 <= i < |existing| ==> existing[i] == all[i];
      assert forall i :: 0 <= i < |imported| ==> imported[i] == all[|existing| + i];
      Ok(r)
  }

  /** Importing the same table a second time changes nothing. */
  lemma ImportIdempotent(existing: Table, columns: set<string>, imported: Table)
    requires RequiredColumns <= columns
    ensures Import(Import(existing, columns, imported).value, columns, imported)
            == Import(existing, columns, imported)
  {
    var all := existing + imported;
    var once := DropDuplicates(all);
    assert Import(existing, columns, imported) == Ok(once);
    assert Import(once, columns, imported) == Ok(DropDuplicates(once + imported));
    DropAppend(all, imported);
    assert forall x :: x in imported ==> x in all;
    DropAbsorb(all, imported);
  }

  /** A log without repeated rows survives an import intact and in order; the new rows follow it. */
  lemma ImportKeepsLog(existing: Table, columns: set<string>, imported: Table)
    requires RequiredColumns <= columns
    requires NoDup(existing)
    ensures |existing| <= |Import(existing, columns, imported).value|
    ensures Import(existing, columns, imported).value[..|existing|] == existing
  {
    DropPrefix(existing, imported);
    DropNoDup(existing);
  }

  /** A row as it sits in memory while the import de-duplicates: the log's rows come back from the
      CSV file with their date as text, the imported rows carry a parsed timestamp. A text date and
      a timestamp never compare equal; two missing dates do. */
  datatype StoredRow = StoredRow(book: Book, stampedDate: bool)

  function Stored(rows: Table, fromImport: bool): (r: seq<StoredRow>)
    ensures |r| == |rows|
  {
    seq(|rows|, i requires 0 <= i < |rows| => StoredRow(rows[i], fromImport && rows[i].finished.Some?))
  }

  function Unstored(rows: seq<StoredRow>): (r: Table)
    ensures |r| == |rows|
  {
    seq(|rows|, i requires 0 <= i < |rows| => rows[i].book)
  }

  /** The import as the code runs it: de-duplication sees the date of a log row as text and the
      date of an imported row as a timestamp, so a dated row present in both tables is kept twice. */
  function ImportAsWritten(existing: Table, columns: set<string>, imported: Table): (r: Result<Table>)
    ensures r.Err? <==> !(RequiredColumns <= columns)
    ensures r.Ok? ==> |r.value| <= |existing| + |imported|
    ensures r.Ok? ==> forall i :: 0 <= i < |r.value| ==> r.value[i] in existing || r.value[i] in imported
    ensures r.Ok? ==> forall i :: 0 <= i < |existing| ==> existing[i] in r.value
    ensures r.Ok? ==> forall i :: 0 <= i < |imported| ==> imported[i] in r.value
  {
    if !(RequiredColumns <= columns) then Err(MissingColumns)
    else
      var all := Stored(existing, false) + Stored(imported, true);
      var r := Unstored(DropDuplicates(all));
      UnstoredAll(existing, imported);
      UnstoredDrop(all);
      assert forall b :: b in r <==> b in existing + imported;
      Ok(r)
  }

  /** Forgetting how the dates are held gives back the two tables, one after the other. */
  lemma UnstoredAll(existing: Table, imported: Table)
    ensures Unstored(Stored(existing, false) + Stored(imported, true)) == existing + imported
  {
  }

  /** De-duplicating the stored rows keeps at least one copy of every book. */
  lemma UnstoredDrop(all: seq<StoredRow>)
    ensures forall b :: b in Unstored(DropDuplicates(all)) <==> b in Unstored(all)
  {
    var d := DropDuplicates(all);
    DropMember(all);
    forall b | b in Unstored(d)
      ensures b in Unstored(all)
    {
      var j :| 0 <= j < |d| && Unstored(d)[j] == b;
      var k :| 0 <= k < |all| && all[k] == d[j];
      assert Unstored(all)[k] == b;
    }
    forall b | b in Unstored(all)
      ensures b in Unstored(d)
    {
      var k :| 0 <= k < |all| && Unstored(all)[k] == b;
      var j :| 0 <= j < |d| && d[j] == all[k];
      assert Unstored(d)[j] == b;
    }
  }

  /** Importing a file holding one dated book into an empty log, and then importing it again,
      leaves that book in the log twice; the corrected import keeps it once. */
  lemma ReimportDuplicates(columns: set<string>, b: Book)
    requires RequiredColumns <= columns
    requires b.finished.Some?
    ensures ImportAsWritten([], columns, [b]) == Ok([b])
    ensures ImportAsWritten(ImportAsWritten([], columns, [b]).value, columns, [b]) == Ok([b, b])
    ensures Import(Import([], columns, [b]).value, columns, [b]) == Ok([b])
  {
    FirstImport(columns, b);
    SecondImport(columns, b);
    assert [] + [b] == [b];
    DropNoDup([b]);
    ImportIdempotent([], columns, [b]);
  }

  /** Into an empty log, the book arrives once. */
  lemma FirstImport(columns: set<string>, b: Book)
    requires RequiredColumns <= columns
    ensures ImportAsWritten([], columns, [b]) == Ok([b])
  {
    var once := Stored([b], true);
    assert Stored([], false) + once == once;
    DropNoDup(once);
    assert Unstored(once) == [b];
  }

  /** A dated book already in the log is not recognised in the imported file. */
  lemma SecondImport(columns: set<string>, b: Book)
    requires RequiredColumns <= columns
    requires b.finished.Some?
    ensures ImportAsWritten([b], columns, [b]) == Ok([b, b])
  {
    var twice := Stored([b], false) + Stored([b], true);
    assert twice == [StoredRow(b, false), StoredRow(b, true)];
    DropNoDup(twice);
    assert Unstored(twice) == [b, b];
  }

  // ---------------------------------------------------------------------------
  // edit_or_delete_book
  // ---------------------------------------------------------------------------

  /** The row number typed by the user: 1-based, checked against the table. */
  function SelectRow(rows: Table, text: string): (r: Result<nat>)
    ensures |rows| == 0 ==> r == Err(NoData)
    ensures |rows| > 0 && ParseInt(text).None? ==> r == Err(InvalidNumber)
    ensures r.Ok? <==> |rows| > 0 && ParseInt(text).Some? && 1 <= ParseInt(text).value <= |rows|
    ensures r.Ok? ==> r.value < |rows| && r.value == ParseInt(text).value - 1
    ensures r.Err? && |rows| > 0 && ParseInt(text).Some? ==> r.error == IndexOutOfRange
  {
    if |rows| == 0 then Err(NoData)
    else
      match ParseInt(text)
      case None => Err(InvalidNumber)
      case Some(n) =>
        var choice := n - 1;
        if choice < 0 || choice >= |rows| then Err(IndexOutOfRange) else Ok(choice)
  }

  /** Every row of the list the user is shown can be picked by its printed number. */
  lemma SelectListed(rows: Table, i: nat)
    requires i < |rows|
    ensures SelectRow(rows, IntToString(i + 1)) == Ok(i)
  {
    IntRoundTrip(i + 1);
  }

  /** The five answers to the edit prompts, as typed. */
  datatype EditForm = EditForm(title: string, author: string, pages: string, genre: string, date: string)

  /** A text field: the stripped answer replaces the old value unless it is blank. */
  function EditText(current: string, answer: string): (r: string)
    ensures Trim(answer) == "" ==> r == current
    ensures Trim(answer) != "" ==> r == Trim(answer)
  {
    var t := Trim(answer);
    if t != "" then t else current
  }

  /** The page count: replaced only by a non-blank answer int() accepts. */
  function EditPages(current: int, answer: string): (r: int)
    ensures ParseInt(Trim(answer)).None? ==> r == current
    ensures ParseInt(Trim(answer)).Some? ==> r == ParseInt(Trim(answer)).value
  {
    var t := Trim(answer);
    if t != "" && ParseInt(t).Some? then ParseInt(t).value else current
  }

  /** The date: replaced only by a non-blank answer the parser accepts. */
  function EditDate(current: Option<Date>, answer: string, parse: DateParser): (r: Option<Date>)
    ensures Trim(answer) == "" || parse(Trim(answer)).None? ==> r == current
    ensures Trim(answer) != "" && parse(Trim(answer)).Some? ==> r == parse(Trim(answer))
  {
    var t := Trim(answer);
    if t != "" && parse(t).Some? then parse(t) else current
  }

  /** Overwrites the fields whose stripped answer is non-blank; a page count int() refuses, or a
      date the parser refuses, keeps the old value. */
  function ApplyEdit(b: Book, f: EditForm, parse: DateParser): (r: Book)
    ensures r.title == (if Trim(f.title) == "" then b.title else Trim(f.title))
    ensures r.author == (if Trim(f.author) == "" then b.author else Trim(f.author))
    ensures r.genre == (if Trim(f.genre) == "" then b.genre else Trim(f.genre))
    ensures r.pages == (if ParseInt(Trim(f.pages)).Some? then ParseInt(Trim(f.pages)).value else b.pages)
    ensures r.finished ==
      (if Trim(f.date) != "" && parse(Trim(f.date)).Some? then parse(Trim(f.date)) else b.finished)
  {
    Book(EditText(b.title, f.title), EditText(b.author, f.author), EditPages(b.pages, f.pages),
         EditText(b.genre, f.genre), EditDate(b.finished, f.date, parse))
  }

  /** The form left entirely blank. */
  const BlankForm := EditForm("", "", "", "", "")

  /** Leaving every prompt blank keeps the book as it is. */
  lemma BlankEditKeeps(b: Book, parse: DateParser)
    ensures ApplyEdit(b, BlankForm, parse) == b
  {
  }

  /** Submitting the same answers twice is submitting them once. */
  lemma EditIdempotent(b: Book, f: EditForm, parse: DateParser)
    ensures ApplyEdit(ApplyEdit(b, f, parse), f, parse) == ApplyEdit(b, f, parse)
  {
  }

  /** The new values typed in for a book are what an edit stores, whatever the book held before. */
  lemma EditStores(b: Book, title: string, author: string, pages: int, genre: string,
                   dateText: string, parse: DateParser)
    requires Stripped(title) && title != "" && Stripped(author) && author != ""
    requires Stripped(genre) && genre != "" && Stripped(dateText) && dateText != ""
    requires parse(dateText).Some?
    ensures ApplyEdit(b, EditForm(title, author, IntToString(pages), genre, dateText), parse)
            == Book(title, author, pages, genre, parse(dateText))
  {
    TrimStripped(title);
    TrimStripped(author);
    TrimStripped(genre);
    TrimStripped(dateText);
    PagesAnswer(b.pages, pages);
  }

  /** A page count written out in decimal is the count the edit stores. */
  lemma PagesAnswer(current: int, pages: int)
    ensures EditPages(current, IntToString(pages)) == pages
  {
    IntRoundTrip(pages);
    ParseTrim(IntToString(pages));
  }

  /** `df.drop(index=i).reset_index(drop=True)`: row i leaves and the rows after it move up. */
  function DeleteRow(rows: Table, i: nat): (r: Table)
    requires i < |rows|
    ensures |r| == |rows| - 1
    ensures forall j :: 0 <= j < i ==> r[j] == rows[j]
    ensures forall j :: i <= j < |r| ==> r[j] == rows[j + 1]
  {
    rows[..i] + rows[i + 1..]
  }

  /** Deletion removes exactly one copy of the chosen row, and putting it back at its position
      restores the table. */
  lemma DeleteRestore(rows: Table, i: nat)
    requires i < |rows|
    ensures multiset(DeleteRow(rows, i)) + multiset{rows[i]} == multiset(rows)
    ensures DeleteRow(rows, i)[..i] + [rows[i]] + DeleteRow(rows, i)[i..] == rows
  {
    var r := DeleteRow(rows, i);
    assert rows == rows[..i] + [rows[i]] + rows[i + 1..];
    assert r[..i] == rows[..i] && r[i..] == rows[i + 1..];
  }

  /** What the user chose to do with the selected row. */
  datatype Action =
    | Edit(form: EditForm)
    | Delete(confirm: string)
    | OtherAction

  /** `df.at[i, ...] = ...`: row i replaced by b, every other row as it was. */
  function ReplaceRow(rows: Table, i: nat, b: Book): (r: Table)
    requires i < |rows|
    ensures |r| == |rows| && r[i] == b
    ensures forall j :: 0 <= j < |rows| && j != i ==> r[j] == rows[j]
  {
    rows[i := b]
  }

  /** What the chosen action does to row i. */
  function ApplyAction(rows: Table, i: nat, action: Action, parse: DateParser): (r: Table)
    requires i < |rows|
    ensures action.Edit? ==> r == ReplaceRow(rows, i, ApplyEdit(rows[i], action.form, parse))
    ensures action.Delete? && Confirms(action.confirm) ==> r == DeleteRow(rows, i)
    ensures action.OtherAction? || (action.Delete? && !Confirms(action.confirm)) ==> r == rows
  {
    match action
    case Edit(form) => ReplaceRow(rows, i, ApplyEdit(rows[i], form, parse))
    case Delete(confirm) => if Confirms(confirm) then DeleteRow(rows, i) else rows
    case OtherAction => rows
  }

  /** edit_or_delete_book: the table written back. A refused selection leaves it unchanged (Err);
      an unknown action or a deletion not confirmed with "y" writes it back as it was. */
  function EditOrDelete(rows: Table, choiceText: string, action: Action, parse: DateParser): (r: Result<Table>)
    ensures r.Ok? <==> SelectRow(rows, choiceText).Ok?
    ensures r.Err? ==> r.error == SelectRow(rows, choiceText).error
    ensures r.Ok? ==> r.value == ApplyAction(rows, SelectRow(rows, choiceText).value, action, parse)
  {
    match SelectRow(rows, choiceText)
    case Err(e) => Err(e)
    case Ok(i) => Ok(ApplyAction(rows, i, action, parse))
  }

  /** Deleting row number i + 1, confirmed with any answer that reads "y" once stripped and
      lower-cased, removes exactly that row. */
  lemma DeleteListed(rows: Table, i: nat, confirm: string, parse: DateParser)
    requires i < |rows|
    requires Confirms(confirm)
    ensures EditOrDelete(rows, IntToString(i + 1), Delete(confirm), parse).Ok?
    ensures multiset(EditOrDelete(rows, IntToString(i + 1), Delete(confirm), parse).value)
            + multiset{rows[i]} == multiset(rows)
  {
    var choice := IntToString(i + 1);
    SelectListed(rows, i);
    var r := EditOrDelete(rows, choice, Delete(confirm), parse);
    assert r == Ok(ApplyAction(rows, i, Delete(confirm), parse));
    assert ApplyAction(rows, i, Delete(confirm), parse) == DeleteRow(rows, i);
    DeleteRestore(rows, i);
  }

  /** Editing row number i + 1 rewrites that row, as the edit prompts decide, and only that row. */
  lemma EditListed(rows: Table, i: nat, form: EditForm, parse: DateParser)
    requires i < |rows|
    ensures EditOrDelete(rows, IntToString(i + 1), Edit(form), parse)
            == Ok(rows[..i] + [ApplyEdit(rows[i], form, parse)] + rows[i + 1..])
  {
    SelectListed(rows, i);
    ReplaceSplice(rows, i, ApplyEdit(rows[i], form, parse));
  }

  /** Replacing a row is splicing the new row in between the rows before and after it. */
  lemma ReplaceSplice(rows: Table, i: nat, b: Book)
    requires i < |rows|
    ensures ReplaceRow(rows, i, b) == rows[..i] + [b] + rows[i + 1..]
  {
    assert rows[i := b] == rows[..i] + [b] + rows[i + 1..];
  }
}

=== FILE: charts.dfy ===
/** The data each chart is drawn from: the single-genre monthly bars, the stacked month-by-genre
    table with its registry allow-list, the per-genre row counts of the pie charts, and the
    year/quarter selection of the filtered summary. Drawing itself is not modelled. */
module Charts {
  import opened Base
  import opened Text
  import opened Unique
  import opened Sums
  import opened GenreRegistry
  import opened Books
  import opened Monthly

  /** The genre cell holds text. An empty genre is written to the log file as an empty field, and
      read_csv reads that field back as a missing value, which value_counts and groupby leave out. */
  predicate HasGenre(b: Book) {
    b.genre != ""
  }

  /** The rows whose genre cell holds text, in table order. */
  function WithGenre(rows: Table): (r: Table)
    ensures forall i :: 0 <= i < |r| ==> HasGenre(r[i])
    ensures |r| == 0 <==> forall i :: 0 <= i < |rows| ==> !HasGenre(rows[i])
    ensures forall b :: multiset(r)[b] == if HasGenre(b) then multiset(rows)[b] else 0
  {
    Filter(rows, HasGenre)
  }

  /** A non-empty log whose every genre cell is empty. read_csv then gives the Genre column a
      numeric type, and the string methods the charts call on it (`.str.lower()`, `.str.strip()`)
      raise before anything is drawn. */
  predicate GenresUnreadable(rows: Table) {
    |rows| > 0 && forall i :: 0 <= i < |rows| ==> !HasGenre(rows[i])
  }

  /** A row with a genre is among the rows with a genre. */
  lemma WithGenreHas(rows: Table, i: nat)
    requires i < |rows| && HasGenre(rows[i])
    ensures rows[i] in WithGenre(rows)
  {
    assert multiset(WithGenre(rows))[rows[i]] > 0;
  }

  // ---------------------------------------------------------------------------
  // plot_by_genre
  // ---------------------------------------------------------------------------

  /** Rows whose genre, lower-cased and stripped, equals key. */
  function GenreKeep(key: string): Book -> bool {
    (b: Book) => Fold(b.genre) == key
  }

  /** The rows the chart covers: all of them for a blank answer, otherwise the rows whose genre
      matches the answer up to case and surrounding whitespace. */
  function GenreRows(rows: Table, text: string): (r: Table)
    ensures Trim(text) == "" ==> r == rows
    ensures Trim(text) != "" ==> forall b :: multiset(r)[b] == if Fold(b.genre) == Fold(text) then multiset(rows)[b] else 0
    ensures Trim(text) != "" ==> (|r| == 0 <==> forall i :: 0 <= i < |rows| ==> Fold(rows[i].genre) != Fold(text))
  {
    var t := Trim(text);
    FoldTrim(text);
    if t == "" then rows else Filter(rows, GenreKeep(Fold(t)))
  }

  datatype GenreChart = GenreChart(color: string, bars: seq<Bar>)

  /** plot_by_genre: the bars of pages per month for the chosen genre (or all genres) and their
      colour. An empty log, or a genre no row has, draws nothing; a filter applied to a log whose
      genre cells are all empty fails on the genre column itself. */
  function PlotByGenre(rows: Table, reg: Registry, text: string): (r: Result<GenreChart>)
    ensures r.Err? <==> |rows| == 0 || (Trim(text) != "" && forall i :: 0 <= i < |rows| ==> Fold(rows[i].genre) != Fold(text))
    ensures r.Err? ==> r.error == if Trim(text) != "" && GenresUnreadable(rows) then NoGenres else NoData
    ensures r.Ok? ==> r.value.bars == MonthlyPages(GenreRows(rows, text))
    ensures r.Ok? ==> Total(r.value.bars) == DatedPages(GenreRows(rows, text))
    ensures r.Ok? && Trim(text) == "" ==> r.value.color == "steelblue"
    ensures r.Ok? && Trim(text) != "" ==> r.value.color == ColorFor(reg, Normalize(text), "darkorange")
  {
    if Trim(text) == "" then PlotFor(rows, reg, true, Fold(text), Normalize(text))
    else
      FilteredRows(rows, text);
      if GenresUnreadable(rows) then
        UnreadableMatchesNone(rows, text);
        PlotFor(rows, reg, false, Fold(text), Normalize(text))
      else PlotFor(rows, reg, false, Fold(text), Normalize(text))
  }

  /** For a non-blank answer the chart's rows are those whose folded genre equals the folded answer. */
  lemma FilteredRows(rows: Table, text: string)
    requires Trim(text) != ""
    ensures GenreRows(rows, text) == Filter(rows, GenreKeep(Fold(text)))
  {
    FoldTrim(text);
  }

  /** With every genre cell empty, no row matches a non-blank answer. */
  lemma UnreadableMatchesNone(rows: Table, text: string)
    requires Trim(text) != "" && GenresUnreadable(rows)
    ensures forall i :: 0 <= i < |rows| ==> Fold(rows[i].genre) != Fold(text)
  {
    assert |Fold("")| == 0;
    assert |Fold(text)| > 0;
  }

  /** The chart for an answer that is blank (all) or otherwise compares by key and is looked up in
      the registry by name; `.title().strip()` of a stripped answer is its normal form. */
  function PlotFor(rows: Table, reg: Registry, all: bool, key: string, name: string): Result<GenreChart> {
    if |rows| == 0 then Err(NoData)
    else if all then Ok(GenreChart("steelblue", MonthlyPages(rows)))
    else if GenresUnreadable(rows) then Err(NoGenres)
    else
      var selected := Filter(rows, GenreKeep(key));
      if |selected| == 0 then Err(NoData)
      else Ok(GenreChart(ColorFor(reg, name, "darkorange"), MonthlyPages(selected)))
  }

  /** Lower-casing the answer first selects the same rows. */
  lemma GenreRowsLower(rows: Table, text: string)
    ensures Trim(Lower(text)) == Lower(Trim(text)) && |Trim(Lower(text))| == |Trim(text)|
    ensures GenreRows(rows, Lower(text)) == GenreRows(rows, text)
  {
    var t := Trim(text);
    LowerTrim(text);
    LowerSlice(t, 0, |t|);
    FoldLower(t);
    assert Fold(Trim(Lower(text))) == Fold(t);
  }

  /** Typing the genre in lower case draws the same chart as typing it any other way. */
  lemma GenreCaseInsensitive(rows: Table, reg: Registry, text: string)
    ensures PlotByGenre(rows, reg, Lower(text)) == PlotByGenre(rows, reg, text)
  {
    var t := Trim(text);
    LowerTrim(text);
    assert |Trim(Lower(text))| == |t|;
    FoldLower(text);
    TitleLower(t);
    assert Normalize(Lower(text)) == Normalize(text);
  }

  // ---------------------------------------------------------------------------
  // Stacked month-by-genre table: plot_progress and the filtered summary's bar chart
  // ---------------------------------------------------------------------------

  /** The genres of the dated rows, in row order; undated rows have no month and so no column. */
  function DatedGenres(rows: Table): seq<string>
    decreases |rows|
  {
    if |rows| == 0 then []
    else
      var rest := DatedGenres(rows[..|rows| - 1]);
      var x := rows[|rows| - 1];
      if x.finished.Some? then rest + [x.genre] else rest
  }

  /** Every dated row's genre is listed. */
  lemma {:induction false} DatedGenresCover(rows: Table)
    ensures forall i :: 0 <= i < |rows| && rows[i].finished.Some? ==> rows[i].genre in DatedGenres(rows)
    decreases |rows|
  {
    if |rows| > 0 {
      var n := |rows| - 1;
      var prefix := rows[..n];
      DatedGenresCover(prefix);
      forall i | 0 <= i < n && rows[i].finished.Some?
        ensures rows[i].genre in DatedGenres(prefix)
      {
        assert prefix[i] == rows[i];
      }
    }
  }

  /** Some dated row of the table has genre g. */
  predicate DatedIn(rows: Table, g: string) {
    exists i :: 0 <= i < |rows| && rows[i].finished.Some? && rows[i].genre == g
  }

  /** Every listed genre is the genre of some dated row. */
  lemma {:induction false} DatedGenresFrom(rows: Table)
    ensures forall j :: 0 <= j < |DatedGenres(rows)| ==> DatedIn(rows, DatedGenres(rows)[j])
    decreases |rows|
  {
    if |rows| > 0 {
      var n := |rows| - 1;
      var prefix := rows[..n];
      var rest := DatedGenres(prefix);
      var r := DatedGenres(rows);
      DatedGenresFrom(prefix);
      forall j | 0 <= j < |r|
        ensures DatedIn(rows, r[j])
      {
        if j < |rest| {
          assert r[j] == rest[j] && DatedIn(prefix, rest[j]);
          var i :| 0 <= i < |prefix| && prefix[i].finished.Some? && prefix[i].genre == rest[j];
          assert rows[i] == prefix[i];
        } else {
          assert rows[n].genre == r[j];
        }
      }
    } else {
      assert DatedGenres(rows) == [];
    }
  }

  /** Reference definition: the pages of the rows of genre g finished in month m. */
  function Cell(rows: Table, m: Month, g: string): int
    decreases |rows|
  {
    if |rows| == 0 then 0
    else
      var x := rows[|rows| - 1];
      Cell(rows[..|rows| - 1], m, g) + (if InMonth(x, m) && x.genre == g then x.pages else 0)
  }

  /** One month's stack: a cell per column, 0 where the genre read nothing (fill_value=0). */
  function StackOf(rows: Table, columns: seq<string>, m: Month): seq<int> {
    seq(|columns|, j requires 0 <= j < |columns| => Cell(rows, m, columns[j]))
  }

  datatype Stack = Stack(month: Month, cells: seq<int>)

  datatype StackedChart = StackedChart(columns: seq<string>, colors: seq<string>, stacks: seq<Stack>)

  /** `groupby(['Month', 'Genre'])['Pages'].sum().unstack(fill_value=0)`: a column per genre that
      has a dated row, a stack per month that has one, and each column coloured from the registry
      with "gray" for a genre it lacks. */
  function Stacked(rows: Table, reg: Registry): (r: StackedChart)
    ensures NoDup(r.columns) && |r.colors| == |r.columns|
    ensures forall i :: 0 <= i < |rows| && rows[i].finished.Some? ==> rows[i].genre in r.columns
    ensures forall j :: 0 <= j < |r.columns| ==> DatedIn(rows, r.columns[j])
    ensures forall j :: 0 <= j < |r.columns| ==> r.colors[j] == ColorFor(reg, r.columns[j], "gray")
    ensures |r.stacks| == |MonthlyPages(rows)|
    ensures forall i :: 0 <= i < |r.stacks| ==> r.stacks[i].month == MonthlyPages(rows)[i].month
    ensures forall i, j :: 0 <= i < |r.stacks| && 0 <= j < |r.columns| ==>
      |r.stacks[i].cells| == |r.columns| && r.stacks[i].cells[j] == Cell(rows, r.stacks[i].month, r.columns[j])
  {
    var genres := DatedGenres(rows);
    DatedGenresCover(rows);
    DatedGenresFrom(rows);
    var columns := DropDuplicates(genres);
    var bars := MonthlyPages(rows);
    StackedChart(
      columns,
      seq(|columns|, j requires 0 <= j < |columns| => ColorFor(reg, columns[j], "gray")),
      seq(|bars|, i requires 0 <= i < |bars| => Stack(bars[i].month, StackOf(rows, columns, bars[i].month))))
  }

  /** Across columns that name every dated genre once, a month's cells add up to its page total. */
  lemma {:induction false} CellsSum(rows: Table, columns: seq<string>, m: Month)
    requires NoDup(columns)
    requires forall i :: 0 <= i < |rows| && rows[i].finished.Some? ==> rows[i].genre in columns
    ensures Sum(StackOf(rows, columns, m)) == MonthPages(rows, m)
    decreases |rows|
  {
    if |rows| > 0 {
      var n := |rows| - 1;
      var prefix := rows[..n];
      var x := rows[n];
      assert forall i :: 0 <= i < n ==> prefix[i] == rows[i];
      CellsSum(prefix, columns, m);
      var v := if InMonth(x, m) then x.pages else 0;
      var before := StackOf(prefix, columns, m);
      var step := Indicator(columns, x.genre, v);
      var after := StackOf(rows, columns, m);
      forall j | 0 <= j < |columns|
        ensures after[j] == before[j] + step[j]
      {
        assert Cell(rows, m, columns[j]) == Cell(prefix, m, columns[j]) + (if InMonth(x, m) && x.genre == columns[j] then x.pages else 0);
      }
      SumAdd(before, step, after);
      SumIndicator(columns, x.genre, v);
      assert x.finished.Some? ==> x.genre in columns;
      assert MonthPages(rows, m) == MonthPages(prefix, m) + v;
    } else {
      assert StackOf(rows, columns, m) == Indicator(columns, "", 0);
      SumIndicator(columns, "", 0);
    }
  }

  /** Every stack is exactly as tall as the month's bar in the single-series chart: stacking splits
      each month's pages among the genres without losing or adding any. */
  lemma StackHeights(rows: Table, reg: Registry, i: nat)
    requires i < |Stacked(rows, reg).stacks|
    ensures Sum(Stacked(rows, reg).stacks[i].cells) == MonthlyPages(rows)[i].pages
  {
    var c := Stacked(rows, reg);
    CellsSum(rows, c.columns, c.stacks[i].month);
    assert c.stacks[i].cells == StackOf(rows, c.columns, c.stacks[i].month);
    BarIsMonthSum(rows, i);
  }

  function GenreIs(g: string): Book -> bool {
    (b: Book) => b.genre == g
  }

  /** A genre's cell in month m is that month's bar in the chart of the genre's rows alone. */
  lemma {:induction false} CellIsMonthPages(rows: Table, m: Month, g: string)
    ensures Cell(rows, m, g) == MonthPages(Filter(rows, GenreIs(g)), m)
    decreases |rows|
  {
    if |rows| > 0 {
      var n := |rows| - 1;
      var prefix := rows[..n];
      var x := rows[n];
      CellIsMonthPages(prefix, m, g);
      LastSplit(rows);
      var f := Filter(prefix, GenreIs(g));
      FilterSnoc(prefix, x, GenreIs(g));
      MonthPagesSnoc(f, x, m);
    }
  }

  // ---------------------------------------------------------------------------
  // plot_progress
  // ---------------------------------------------------------------------------

  /** `df['Genre'].str.strip().str.title()` on every row. */
  function NormalizeGenres(rows: Table): (r: Table)
    ensures |r| == |rows|
    ensures forall i :: 0 <= i < |rows| ==> r[i] == rows[i].(genre := Normalize(rows[i].genre))
    ensures forall i :: 0 <= i < |r| ==> Normalize(r[i].genre) == r[i].genre
  {
    forall i | 0 <= i < |rows|
      ensures Normalize(Normalize(rows[i].genre)) == Normalize(rows[i].genre)
    {
      NormalizeIdempotent(rows[i].genre);
    }
    seq(|rows|, i requires 0 <= i < |rows| => rows[i].(genre := Normalize(rows[i].genre)))
  }

  function RegisteredKeep(reg: Registry): Book -> bool {
    (b: Book) => b.genre in Names(reg)
  }

  /** A row of the normalised table is some row of the log with its genre normalised. */
  lemma NormalizedFrom(rows: Table, b: Book)
    requires b in NormalizeGenres(rows)
    ensures exists i :: 0 <= i < |rows| && b == rows[i].(genre := Normalize(rows[i].genre))
    ensures Normalize(b.genre) == b.genre
  {
    var normal := NormalizeGenres(rows);
    var k :| 0 <= k < |normal| && normal[k] == b;
    NormalizeIdempotent(rows[k].genre);
  }

  /** The rows the progress chart covers: rows without a genre dropped (they read back as missing),
      genres normalised, then only the registered ones kept, every copy of a kept row included. */
  function ProgressRows(rows: Table, reg: Registry): (r: Table)
    ensures forall i :: 0 <= i < |r| ==> r[i].genre in Names(reg) && Normalize(r[i].genre) == r[i].genre
    ensures forall b ::
      multiset(r)[b] == if b.genre in Names(reg) then multiset(NormalizeGenres(WithGenre(rows)))[b] else 0
    ensures forall i :: 0 <= i < |rows| && HasGenre(rows[i]) && Normalize(rows[i].genre) in Names(reg) ==>
      rows[i].(genre := Normalize(rows[i].genre)) in r
    ensures forall b :: b in r ==>
      exists i :: 0 <= i < |rows| && HasGenre(rows[i]) && b == rows[i].(genre := Normalize(rows[i].genre))
  {
    var named := WithGenre(rows);
    var normal := NormalizeGenres(named);
    var r := Filter(normal, RegisteredKeep(reg));
    KeptNormal(named, normal, r, reg);
    KeptCovers(rows, named, normal, r, reg);
    KeptFrom(rows, named, normal, r);
    r
  }

  /** Rows kept from normalised rows by the allow-list are registered and normalised. */
  lemma KeptNormal(named: Table, normal: Table, r: Table, reg: Registry)
    requires normal == NormalizeGenres(named)
    requires forall b :: multiset(r)[b] == (if b.genre in Names(reg) then multiset(normal)[b] else 0)
    ensures forall i :: 0 <= i < |r| ==> r[i].genre in Names(reg) && Normalize(r[i].genre) == r[i].genre
  {
    forall i | 0 <= i < |r|
      ensures r[i].genre in Names(reg) && Normalize(r[i].genre) == r[i].genre
    {
      assert multiset(r)[r[i]] > 0;
      assert r[i] in normal;
      NormalizedFrom(named, r[i]);
    }
  }

  /** Every row with a registered normalised genre reaches the allow-listed rows. */
  lemma KeptCovers(rows: Table, named: Table, normal: Table, r: Table, reg: Registry)
    requires named == WithGenre(rows) && normal == NormalizeGenres(named)
    requires forall b :: multiset(r)[b] == (if b.genre in Names(reg) then multiset(normal)[b] else 0)
    ensures forall i :: 0 <= i < |rows| && HasGenre(rows[i]) && Normalize(rows[i].genre) in Names(reg) ==>
      rows[i].(genre := Normalize(rows[i].genre)) in r
  {
    forall i | 0 <= i < |rows| && HasGenre(rows[i]) && Normalize(rows[i].genre) in Names(reg)
      ensures rows[i].(genre := Normalize(rows[i].genre)) in r
    {
      WithGenreHas(rows, i);
      var k :| 0 <= k < |named| && named[k] == rows[i];
      assert normal[k] in normal;
      assert multiset(r)[normal[k]] > 0;
    }
  }

  /** Every allow-listed row is the normalised copy of a row with a genre. */
  lemma KeptFrom(rows: Table, named: Table, normal: Table, r: Table)
    requires named == WithGenre(rows) && normal == NormalizeGenres(named)
    requires forall b :: multiset(r)[b] <= multiset(normal)[b]
    ensures forall b :: b in r ==>
      exists i :: 0 <= i < |rows| && HasGenre(rows[i]) && b == rows[i].(genre := Normalize(rows[i].genre))
  {
    forall b | b in r
      ensures exists i :: 0 <= i < |rows| && HasGenre(rows[i]) && b == rows[i].(genre := Normalize(rows[i].genre))
    {
      assert multiset(r)[b] > 0;
      assert b in normal;
      var k :| 0 <= k < |normal| && normal[k] == b;
      assert multiset(named)[named[k]] > 0;
      var i :| 0 <= i < |rows| && rows[i] == named[k];
    }
  }

  /** With no empty genre name registered, applying the allow-list a second time changes nothing. */
  lemma ProgressIdempotent(rows: Table, reg: Registry)
    requires "" !in Names(reg)
    ensures ProgressRows(ProgressRows(rows, reg), reg) == ProgressRows(rows, reg)
  {
    var r := ProgressRows(rows, reg);
    FilterAll(r, HasGenre);
    assert WithGenre(r) == r;
    assert NormalizeGenres(r) == r;
    FilterAll(r, RegisteredKeep(reg));
  }

  /** plot_progress: the stacked chart of the registered genres. Every column is a registered genre,
      so every column is drawn in its registered colour and never in the fallback grey. */
  function ProgressChart(rows: Table, reg: Registry): (r: Result<StackedChart>)
    ensures r.Err? <==> |rows| == 0 || GenresUnreadable(rows)
    ensures r.Err? ==> r.error == if |rows| == 0 then NoData else NoGenres
    ensures r.Ok? ==> r.value == Stacked(ProgressRows(rows, reg), reg)
    ensures r.Ok? ==> forall j :: 0 <= j < |r.value.columns| ==>
      Find(reg, r.value.columns[j]).Some? && r.value.colors[j] == reg[Find(reg, r.value.columns[j]).value].color
  {
    if |rows| == 0 then Err(NoData)
    else if GenresUnreadable(rows) then Err(NoGenres)
    else
      var selected := ProgressRows(rows, reg);
      var c := Stacked(selected, reg);
      forall j | 0 <= j < |c.columns|
        ensures Find(reg, c.columns[j]).Some? && c.colors[j] == reg[Find(reg, c.columns[j]).value].color
      {
        ColumnRegistered(selected, reg, c.columns[j]);
      }
      Ok(c)
  }

  /** A column of the progress chart is a registered genre, drawn in its registered colour. */
  lemma ColumnRegistered(selected: Table, reg: Registry, g: string)
    requires forall i :: 0 <= i < |selected| ==> selected[i].genre in Names(reg)
    requires g in Stacked(selected, reg).columns
    ensures Find(reg, g).Some? && ColorFor(reg, g, "gray") == reg[Find(reg, g).value].color
  {
    var c := Stacked(selected, reg);
    var j :| 0 <= j < |c.columns| && c.columns[j] == g;
    assert DatedIn(selected, g);
    var i :| 0 <= i < |selected| && selected[i].finished.Some? && selected[i].genre == g;
  }

  // ---------------------------------------------------------------------------
  // Genre counts: plot_genre_distribution and the filtered summary's pie chart
  // ---------------------------------------------------------------------------

  datatype Slice = Slice(genre: string, count: nat)

  /** The colour of each slice, `genre_color_dict.get(genre, 'gray')`: a registered genre's own
      colour, grey for any other. */
  function PieColors(slices: seq<Slice>, reg: Registry): (r: seq<string>)
    ensures |r| == |slices|
    ensures forall i :: 0 <= i < |slices| && slices[i].genre !in Names(reg) ==> r[i] == "gray"
    ensures forall i :: 0 <= i < |slices| && slices[i].genre in Names(reg) ==> Entry(slices[i].genre, r[i]) in reg
  {
    seq(|slices|, i requires 0 <= i < |slices| => ColorFor(reg, slices[i].genre, "gray"))
  }

  /** The genres the slices are labelled with, in slice order. */
  function Labels(slices: seq<Slice>): seq<string> {
    seq(|slices|, i requires 0 <= i < |slices| => slices[i].genre)
  }

  /** value_counts(): one slice per distinct genre, holding the number of rows of that genre. */
  function Tally(genres: seq<string>): (r: seq<Slice>)
    ensures NoDup(Labels(r))
    ensures forall g :: g in Labels(r) <==> g in genres
    ensures forall i :: 0 <= i < |r| ==> r[i].count == multiset(genres)[r[i].genre] > 0
  {
    var keys := DropDuplicates(genres);
    var r := seq(|keys|, i requires 0 <= i < |keys| => Slice(keys[i], multiset(genres)[keys[i]]));
    assert Labels(r) == keys;
    DropMember(genres);
    r
  }

  function Counts(slices: seq<Slice>): seq<int> {
    seq(|slices|, i requires 0 <= i < |slices| => slices[i].count as int)
  }

  function KeyCounts(keys: seq<string>, genres: seq<string>): seq<int> {
    seq(|keys|, i requires 0 <= i < |keys| => multiset(genres)[keys[i]] as int)
  }

  /** The slices together count every row once. */
  lemma {:induction false} TallyTotal(genres: seq<string>)
    ensures Sum(Counts(Tally(genres))) == |genres|
  {
    assert Counts(Tally(genres)) == KeyCounts(DropDuplicates(genres), genres);
    KeyCountsTotal(genres);
  }

  lemma {:induction false} KeyCountsTotal(genres: seq<string>)
    ensures Sum(KeyCounts(DropDuplicates(genres), genres)) == |genres|
    decreases |genres|
  {
    if |genres| > 0 {
      var n := |genres| - 1;
      var prefix := genres[..n];
      var x := genres[n];
      var d := DropDuplicates(prefix);
      LastSplit(genres);
      KeyCountsTotal(prefix);
      DropSnoc(prefix, x);
      KeyCountsSnoc(d, prefix, x);
      if x !in d {
        KeyCountsNew(d, prefix, x);
      }
    }
  }

  /** One more row adds one to the count of its own key, if that key is listed. */
  lemma KeyCountsSnoc(keys: seq<string>, genres: seq<string>, x: string)
    requires NoDup(keys)
    ensures Sum(KeyCounts(keys, genres + [x])) == Sum(KeyCounts(keys, genres)) + if x in keys then 1 else 0
  {
    SumAdd(KeyCounts(keys, genres), Indicator(keys, x, 1), KeyCounts(keys, genres + [x]));
    SumIndicator(keys, x, 1);
  }

  /** A key seen for the first time counts its one row. */
  lemma KeyCountsNew(keys: seq<string>, genres: seq<string>, x: string)
    requires x !in genres
    ensures Sum(KeyCounts(keys + [x], genres + [x])) == Sum(KeyCounts(keys, genres + [x])) + 1
  {
    var g := genres + [x];
    assert KeyCounts(keys + [x], g) == KeyCounts(keys, g) + [multiset(g)[x] as int];
    SumSnoc(KeyCounts(keys, g), multiset(g)[x] as int);
  }

  /** The genre column after `str.strip().str.title()`: every entry is already in normal form. */
  function NormalGenres(rows: Table): (r: seq<string>)
    ensures |r| == |rows|
    ensures forall i :: 0 <= i < |rows| ==> r[i] == Normalize(rows[i].genre)
    ensures forall g :: g in r ==> Normalize(g) == g
  {
    var r := seq(|rows|, i requires 0 <= i < |rows| => Normalize(rows[i].genre));
    forall g | g in r
      ensures Normalize(g) == g
    {
      var k :| 0 <= k < |r| && r[k] == g;
      NormalizeIdempotent(rows[k].genre);
    }
    r
  }

  /** plot_genre_distribution: the slices of the normalised genres. Rows without a genre read back
      as missing and are not counted; a log holding only such rows fails on the genre column. */
  function GenreDistribution(rows: Table): (r: Result<seq<Slice>>)
    ensures r.Err? <==> |rows| == 0 || GenresUnreadable(rows)
    ensures r.Err? ==> r.error == if |rows| == 0 then NoData else NoGenres
    ensures r.Ok? ==> |r.value| > 0
    ensures r.Ok? ==> Sum(Counts(r.value)) == |WithGenre(rows)|
    ensures r.Ok? ==> NoDup(Labels(r.value))
    ensures r.Ok? ==> forall i :: 0 <= i < |r.value| ==>
      r.value[i].count == multiset(NormalGenres(WithGenre(rows)))[r.value[i].genre] > 0
    ensures r.Ok? ==> forall g :: g in Labels(r.value) ==> Normalize(g) == g
    ensures r.Ok? ==> forall i :: 0 <= i < |rows| && HasGenre(rows[i]) ==> Normalize(rows[i].genre) in Labels(r.value)
  {
    if |rows| == 0 then Err(NoData)
    else if GenresUnreadable(rows) then Err(NoGenres)
    else
      var genres := NormalGenres(WithGenre(rows));
      TallyTotal(genres);
      NormalLabels(rows);
      Ok(Tally(genres))
  }

  /** Every label of the tally is a normalised genre, and every named row's normalised genre is a label. */
  lemma NormalLabels(rows: Table)
    ensures forall g :: g in Labels(Tally(NormalGenres(WithGenre(rows)))) ==> Normalize(g) == g
    ensures forall i :: 0 <= i < |rows| && HasGenre(rows[i]) ==>
      Normalize(rows[i].genre) in Labels(Tally(NormalGenres(WithGenre(rows))))
  {
    var named := WithGenre(rows);
    var genres := NormalGenres(named);
    forall i | 0 <= i < |rows| && HasGenre(rows[i])
      ensures Normalize(rows[i].genre) in genres
    {
      WithGenreHas(rows, i);
      var k :| 0 <= k < |named| && named[k] == rows[i];
      assert genres[k] == Normalize(rows[i].genre);
    }
  }

  /** The genre column of a table. */
  function GenreColumn(rows: Table): (r: seq<string>)
    ensures |r| == |rows|
    ensures forall i :: 0 <= i < |rows| ==> r[i] == rows[i].genre
  {
    seq(|rows|, i requires 0 <= i < |rows| => rows[i].genre)
  }

  // ---------------------------------------------------------------------------
  // show_genre_summary_chart_filtered
  // ---------------------------------------------------------------------------

  /** pandas' dt.quarter. */
  function QuarterOf(d: Date): (r: int)
    ensures 1 <= d.month <= 12 ==> 1 <= r <= 4 && 3 * r - 2 <= d.month <= 3 * r
  {
    (d.month - 1) / 3 + 1
  }

  function YearKeep(y: int): Book -> bool {
    (b: Book) => b.finished.Some? && b.finished.value.year == y
  }

  function QuarterKeep(q: int): Book -> bool {
    (b: Book) => b.finished.Some? && QuarterOf(b.finished.value) == q
  }

  /** The answer to the quarter prompt: blank skips the quarter, otherwise it must be an integer
      in 1..4. */
  function QuarterChoice(text: string): (r: Result<Option<int>>)
    ensures r.Ok? <==> Trim(text) == "" || (ParseInt(Trim(text)).Some? && 1 <= ParseInt(Trim(text)).value <= 4)
    ensures r.Err? ==> r.error == InvalidQuarter
    ensures r.Ok? && Trim(text) == "" ==> r.value == None
    ensures r.Ok? && Trim(text) != "" ==> r.value == Some(ParseInt(Trim(text)).value)
  {
    var t := Trim(text);
    if t == "" then Ok(None)
    else
      match ParseInt(t)
      case None => Err(InvalidQuarter)
      case Some(q) => if 1 <= q <= 4 then Ok(Some(q)) else Err(InvalidQuarter)
  }

  /** Every typed quarter 1..4 is accepted as itself, and every other number is refused. */
  lemma QuarterRoundTrip(q: int)
    ensures QuarterChoice(IntToString(q)) == if 1 <= q <= 4 then Ok(Some(q)) else Err(InvalidQuarter)
  {
    IntRoundTrip(q);
  }

  /** The rows of the chosen year and, when one is given, the chosen quarter. */
  predicate InPeriod(b: Book, year: int, quarter: Option<int>) {
    b.finished.Some? && b.finished.value.year == year
    && (quarter.None? || QuarterOf(b.finished.value) == quarter.value)
  }

  /** How many copies of b a selection of the period keeps: all of them, or none. */
  function Selected(rows: Table, b: Book, year: int, quarter: Option<int>): nat {
    if InPeriod(b, year, quarter) then multiset(rows)[b] else 0
  }

  /** `df[df['Date Finished'].dt.year == year]`: undated rows never match. */
  function YearRows(rows: Table, y: int): (r: Table)
    ensures forall b :: multiset(r)[b] == Selected(rows, b, y, None)
    ensures |r| == 0 <==> forall i :: 0 <= i < |rows| ==> !InPeriod(rows[i], y, None)
  {
    Filter(rows, YearKeep(y))
  }

  /** `df[df['Date Finished'].dt.quarter == quarter]`, applied to the year's rows. */
  function QuarterRows(rows: Table, y: int, q: int): (r: Table)
    ensures forall b :: multiset(r)[b] == Selected(rows, b, y, Some(q))
    ensures |r| == 0 <==> forall i :: 0 <= i < |rows| ==> !InPeriod(rows[i], y, Some(q))
  {
    var year := YearRows(rows, y);
    var r := Filter(year, QuarterKeep(q));
    assert forall b :: multiset(r)[b] == (if QuarterKeep(q)(b) then multiset(year)[b] else 0);
    SelectionEmpty(rows, r, y, Some(q));
    r
  }

  /** A selection that keeps every copy of the rows of a period is empty exactly when no row of the
      table lies in that period. */
  lemma SelectionEmpty(rows: Table, r: Table, y: int, quarter: Option<int>)
    requires forall b :: multiset(r)[b] == Selected(rows, b, y, quarter)
    ensures |r| == 0 <==> forall i :: 0 <= i < |rows| ==> !InPeriod(rows[i], y, quarter)
  {
    if |r| > 0 {
      assert multiset(r)[r[0]] > 0;
      assert rows[IndexOf(rows, r[0])] == r[0];
    } else {
      forall i | 0 <= i < |rows|
        ensures !InPeriod(rows[i], y, quarter)
      {
        assert multiset(rows)[rows[i]] > 0;
        assert multiset(r)[rows[i]] == 0;
      }
    }
  }

  /** The position of a row that occurs in the table. */
  function IndexOf(rows: Table, b: Book): (k: nat)
    requires multiset(rows)[b] > 0
    ensures k < |rows| && rows[k] == b
  {
    assert b in rows;
    FirstIndex(rows, b)
  }

  /** The selection behind both filtered charts. Checks run in the order the prompts come: an empty
      log, then the year, then an empty year, then the quarter, then an empty quarter. */
  function PeriodRows(rows: Table, yearText: string, quarterText: string): (r: Result<Table>)
    ensures |rows| == 0 ==> r == Err(NoData)
    ensures |rows| > 0 && ParseInt(Trim(yearText)).None? ==> r == Err(InvalidYear)
    ensures r.Ok? ==> ParseInt(Trim(yearText)).Some? && QuarterChoice(quarterText).Ok? && |r.value| > 0
    ensures r.Ok? <==>
      && |rows| > 0 && ParseInt(Trim(yearText)).Some? && QuarterChoice(quarterText).Ok?
      && exists i :: 0 <= i < |rows| && InPeriod(rows[i], ParseInt(Trim(yearText)).value, QuarterChoice(quarterText).value)
    ensures r.Ok? ==> forall b :: multiset(r.value)[b] == Selected(rows, b, ParseInt(Trim(yearText)).value, QuarterChoice(quarterText).value)
    ensures r.Err? && r.error == InvalidQuarter ==> QuarterChoice(quarterText).Err?
    ensures (&& |rows| > 0 && ParseInt(Trim(yearText)).Some? && QuarterChoice(quarterText).Err?
             && exists i :: 0 <= i < |rows| && InPeriod(rows[i], ParseInt(Trim(yearText)).value, None))
            ==> r == Err(InvalidQuarter)
    ensures (&& |rows| > 0 && ParseInt(Trim(yearText)).Some?
             && forall i :: 0 <= i < |rows| ==> !InPeriod(rows[i], ParseInt(Trim(yearText)).value, None))
            ==> r == Err(NoData)
    ensures (&& |rows| > 0 && ParseInt(Trim(yearText)).Some? && QuarterChoice(quarterText).Ok?
             && forall i :: 0 <= i < |rows| ==>
                  !InPeriod(rows[i], ParseInt(Trim(yearText)).value, QuarterChoice(quarterText).value))
            ==> r == Err(NoData)
  {
    if |rows| == 0 then Err(NoData)
    else
      match ParseInt(Trim(yearText))
      case None => Err(InvalidYear)
      case Some(y) => YearSelection(rows, y, quarterText)
  }

  /** The selection once the year is read: an empty year, then the quarter answer, then an empty
      quarter. */
  function YearSelection(rows: Table, y: int, quarterText: string): (r: Result<Table>)
    ensures r.Ok? <==>
      && QuarterChoice(quarterText).Ok?
      && exists i :: 0 <= i < |rows| && InPeriod(rows[i], y, QuarterChoice(quarterText).value)
    ensures r.Ok? ==> |r.value| > 0
    ensures r.Ok? ==> forall b :: multiset(r.value)[b] == Selected(rows, b, y, QuarterChoice(quarterText).value)
    ensures r.Err? && r.error == InvalidQuarter ==> QuarterChoice(quarterText).Err?
    ensures QuarterChoice(quarterText).Err? && (exists i :: 0 <= i < |rows| && InPeriod(rows[i], y, None))
            ==> r == Err(InvalidQuarter)
    ensures (forall i :: 0 <= i < |rows| ==> !InPeriod(rows[i], y, None)) ==> r == Err(NoData)
    ensures (&& QuarterChoice(quarterText).Ok?
             && forall i :: 0 <= i < |rows| ==> !InPeriod(rows[i], y, QuarterChoice(quarterText).value))
            ==> r == Err(NoData)
  {
    var inYear := YearRows(rows, y);
    if |inYear| == 0 then Err(NoData)
    else
      match QuarterChoice(quarterText)
      case Err(e) => Err(e)
      case Ok(None) => Ok(inYear)
      case Ok(Some(q)) =>
        var inQuarter := QuarterRows(rows, y, q);
        if |inQuarter| == 0 then Err(NoData) else Ok(inQuarter)
  }

  predicate ValidMonths(rows: Table) {
    forall i :: 0 <= i < |rows| && rows[i].finished.Some? ==> 1 <= rows[i].finished.value.month <= 12
  }

  /** With real calendar months, the four quarters split a year's rows between them: each row of
      the year lies in exactly one quarter. */
  lemma QuartersPartition(rows: Table, y: int)
    requires ValidMonths(rows)
    ensures multiset(YearRows(rows, y)) ==
      multiset(QuarterRows(rows, y, 1)) + multiset(QuarterRows(rows, y, 2))
      + multiset(QuarterRows(rows, y, 3)) + multiset(QuarterRows(rows, y, 4))
  {
    forall b
      ensures Selected(rows, b, y, None) ==
        Selected(rows, b, y, Some(1)) + Selected(rows, b, y, Some(2))
        + Selected(rows, b, y, Some(3)) + Selected(rows, b, y, Some(4))
    {
      QuarterSplit(rows, b, y);
    }
  }

  /** A row of the year is selected by exactly one quarter. */
  lemma QuarterSplit(rows: Table, b: Book, y: int)
    requires ValidMonths(rows)
    ensures Selected(rows, b, y, None) ==
      Selected(rows, b, y, Some(1)) + Selected(rows, b, y, Some(2))
      + Selected(rows, b, y, Some(3)) + Selected(rows, b, y, Some(4))
  {
    if InPeriod(b, y, None) && multiset(rows)[b] > 0 {
      var i :| 0 <= i < |rows| && rows[i] == b;
      var q := QuarterOf(b.finished.value);
      assert 1 <= q <= 4;
    }
  }

  /** The filtered pie chart: slices of the raw genres of the period's rows that have a genre. */
  function PeriodDistribution(rows: Table, yearText: string, quarterText: string): (r: Result<seq<Slice>>)
    ensures r.Err? <==> PeriodRows(rows, yearText, quarterText).Err?
    ensures r.Ok? ==> Sum(Counts(r.value)) == |WithGenre(PeriodRows(rows, yearText, quarterText).value)|
    ensures r.Ok? ==> NoDup(Labels(r.value))
    ensures r.Ok? ==> forall g :: g in Labels(r.value) <==>
      g in GenreColumn(WithGenre(PeriodRows(rows, yearText, quarterText).value))
    ensures r.Ok? ==> forall i :: 0 <= i < |r.value| ==>
      r.value[i].count == multiset(GenreColumn(WithGenre(PeriodRows(rows, yearText, quarterText).value)))[r.value[i].genre] > 0
  {
    match PeriodRows(rows, yearText, quarterText)
    case Err(e) => Err(e)
    case Ok(selected) =>
      var genres := GenreColumn(WithGenre(selected));
      TallyTotal(genres);
      Ok(Tally(genres))
  }

  /** The filtered bar chart: the stacked month-by-genre table of the period's rows that have a
      genre; no column is the empty genre. */
  function PeriodStacked(rows: Table, reg: Registry, yearText: string, quarterText: string): (r: Result<StackedChart>)
    ensures r.Err? <==> PeriodRows(rows, yearText, quarterText).Err?
    ensures r.Ok? ==> r.value == Stacked(WithGenre(PeriodRows(rows, yearText, quarterText).value), reg)
    ensures r.Ok? ==> forall j :: 0 <= j < |r.value.columns| ==> r.value.columns[j] != ""
  {
    match PeriodRows(rows, yearText, quarterText)
    case Err(e) => Err(e)
    case Ok(selected) =>
      NamedColumns(WithGenre(selected), reg);
      Ok(Stacked(WithGenre(selected), reg))
  }

  /** Rows that all have a genre give no column for the empty genre. */
  lemma NamedColumns(rows: Table, reg: Registry)
    requires forall i :: 0 <= i < |rows| ==> HasGenre(rows[i])
    ensures forall j :: 0 <= j < |Stacked(rows, reg).columns| ==> Stacked(rows, reg).columns[j] != ""
  {
    var c := Stacked(rows, reg);
    forall j | 0 <= j < |c.columns|
      ensures c.columns[j] != ""
    {
      assert DatedIn(rows, c.columns[j]);
      var i :| 0 <= i < |rows| && rows[i].finished.Some? && rows[i].genre == c.columns[j];
    }
  }
}

=== FILE: genre_menu.dfy ===
/** The genre-maintenance dialogue: the user picks rename or delete, names a registered genre, and
    then either gives the new name or confirms the deletion. Every answer is stripped first; the
    choice and the confirmation are also lower-cased. An answer the dialogue refuses ends it with
    the registry untouched. */
module GenreMenu {
  import opened Base
  import opened Text
  import opened GenreRegistry

  datatype Choice = RenameChoice | DeleteChoice

  /** The answer to "(r)ename or (d)elete?", read after strip() and lower(): "r" or "R" renames,
      "d" or "D" deletes. */
  function ParseChoice(answer: string): (r: Option<Choice>)
    ensures r == Some(RenameChoice) <==> Trim(answer) == "r" || Trim(answer) == "R"
    ensures r == Some(DeleteChoice) <==> Trim(answer) == "d" || Trim(answer) == "D"
    ensures r.None? <==> Trim(answer) !in {"r", "R", "d", "D"}
  {
    var t := Trim(answer);
    LowerSingle(t, 'r');
    LowerSingle(t, 'd');
    var c := Lower(t);
    if c == "r" then Some(RenameChoice)
    else if c == "d" then Some(DeleteChoice)
    else None
  }

  /** One run of the dialogue, given its four answers in the order they are asked. The new name is
      only read after a rename choice and the confirmation only after a delete choice. */
  function RenameOrDelete(reg: Registry, choice: string, target: string, newName: string, confirm: string)
    : (r: Result<Registry>)
    ensures ParseChoice(choice).None? ==> r == Err(InvalidChoice)
    ensures ParseChoice(choice).Some? && Trim(target) !in Names(reg) ==> r == Err(NotFound)
    ensures r.Ok? <==>
      ParseChoice(choice).Some? && Trim(target) in Names(reg)
      && (ParseChoice(choice) == Some(RenameChoice) ==> Trim(newName) !in Names(reg))
    ensures r.Ok? && WellFormed(reg) ==> WellFormed(r.value)
    ensures ParseChoice(choice) == Some(RenameChoice) && r.Ok? ==>
      |r.value| == |reg| && Trim(newName) in Names(r.value)
      && (WellFormed(reg) ==> Trim(target) !in Names(r.value))
    ensures ParseChoice(choice) == Some(DeleteChoice) && r.Ok? && Confirms(confirm) ==>
      |r.value| == |reg| - 1 && (WellFormed(reg) ==> Trim(target) !in Names(r.value))
    ensures ParseChoice(choice) == Some(DeleteChoice) && r.Ok? && !Confirms(confirm) ==> r.value == reg
    ensures ParseChoice(choice) == Some(RenameChoice) && Trim(target) in Names(reg) ==>
      r == Rename(reg, Trim(target), Trim(newName))
    ensures ParseChoice(choice) == Some(DeleteChoice) && Trim(target) in Names(reg) && Confirms(confirm) ==>
      r == Delete(reg, Trim(target))
  {
    var t := Trim(target);
    match ParseChoice(choice)
    case None => Err(InvalidChoice)
    case Some(c) =>
      if t !in Names(reg) then Err(NotFound)
      else if c == RenameChoice then
        var r := Rename(reg, t, Trim(newName));
        if r.Ok? then RenamedNames(reg, t, Trim(newName)); r else r
      else if Confirms(confirm) then
        DeletedSize(reg, t);
        Delete(reg, t)
      else
        Ok(reg)
  }

  /** A successful delete leaves one entry fewer. */
  lemma DeletedSize(reg: Registry, name: string)
    requires Delete(reg, name).Ok?
    ensures |Delete(reg, name).value| == |reg| - 1
  {
    var k :| 0 <= k < |reg| && reg[k].name == name && Delete(reg, name).value == reg[..k] + reg[k + 1..];
  }

  /** A successful rename registers the new name in place of the old one. */
  lemma RenamedNames(reg: Registry, from: string, to: string)
    requires Rename(reg, from, to).Ok?
    ensures |Rename(reg, from, to).value| == |reg|
    ensures to in Names(Rename(reg, from, to).value)
    ensures WellFormed(reg) ==> WellFormed(Rename(reg, from, to).value)
    ensures WellFormed(reg) ==> from !in Names(Rename(reg, from, to).value)
  {
    var r := Rename(reg, from, to).value;
    var rest := Delete(reg, from).value;
    assert Names(r)[|reg| - 1] == to;
    if WellFormed(reg) {
      RenameLookup(reg, from, to, from, "");
      assert from != to;
      forall i | 0 <= i < |r|
        ensures Names(r)[i] != from
      {
        if i < |reg| - 1 {
          assert r[i] == rest[i];
          assert Names(rest)[i] == rest[i].name;
        }
      }
    }
  }

  /** A rename through the dialogue hands the old genre's colour to the new name and leaves every
      other genre's colour alone. */
  lemma MenuRenameColors(reg: Registry, choice: string, target: string, newName: string, other: string, default: string)
    requires WellFormed(reg)
    requires ParseChoice(choice) == Some(RenameChoice)
    requires RenameOrDelete(reg, choice, target, newName, "").Ok?
    ensures ColorFor(RenameOrDelete(reg, choice, target, newName, "").value, Trim(newName), default)
            == ColorFor(reg, Trim(target), default)
    ensures other != Trim(target) && other != Trim(newName) ==>
      ColorFor(RenameOrDelete(reg, choice, target, newName, "").value, other, default) == ColorFor(reg, other, default)
  {
    assert RenameOrDelete(reg, choice, target, newName, "") == Rename(reg, Trim(target), Trim(newName));
    RenameLookup(reg, Trim(target), Trim(newName), other, default);
  }

  /** A confirmed deletion through the dialogue removes only the named genre: every other genre
      reads back the colour it had. */
  lemma MenuDeleteColors(reg: Registry, choice: string, target: string, confirm: string, other: string, default: string)
    requires WellFormed(reg)
    requires ParseChoice(choice) == Some(DeleteChoice) && Confirms(confirm)
    requires RenameOrDelete(reg, choice, target, "", confirm).Ok?
    requires other != Trim(target)
    ensures ColorFor(RenameOrDelete(reg, choice, target, "", confirm).value, other, default) == ColorFor(reg, other, default)
  {
    assert RenameOrDelete(reg, choice, target, "", confirm) == Delete(reg, Trim(target));
    DeleteLookup(reg, Trim(target), other, default);
  }
}

=== FILE: monthly.dfy ===
/** The monthly page totals behind the bar charts: rows are bucketed by the calendar month of their
    finish date (pandas' to_period('M')), rows without a date fall out of every bucket, and the
    buckets come out in chronological order (sort_index). */
module Monthly {
  import opened Base
  import opened Books
  import opened Unique

  datatype Month = Month(year: int, month: int)

  function MonthOf(d: Date): Month {
    Month(d.year, d.month)
  }

  /** Period order: by year, then by month. */
  predicate Before(a: Month, b: Month) {
    a.year < b.year || (a.year == b.year && a.month < b.month)
  }

  /** One bar of the chart: a month and the pages finished in it. */
  datatype Bar = Bar(month: Month, pages: int)

  predicate Chronological(bars: seq<Bar>) {
    forall i, j :: 0 <= i < j < |bars| ==> Before(bars[i].month, bars[j].month)
  }

  function Months(bars: seq<Bar>): set<Month> {
    set i | 0 <= i < |bars| :: bars[i].month
  }

  /** The height of the bar for month m, 0 when there is none. */
  function Get(bars: seq<Bar>, m: Month): int
    decreases |bars|
  {
    if |bars| == 0 then 0 else (if bars[0].month == m then bars[0].pages else 0) + Get(bars[1..], m)
  }

  /** All bars stacked end to end. */
  function Total(bars: seq<Bar>): int
    decreases |bars|
  {
    if |bars| == 0 then 0 else bars[0].pages + Total(bars[1..])
  }

  predicate InMonth(b: Book, m: Month) {
    b.finished.Some? && MonthOf(b.finished.value) == m
  }

  /** Reference definition: the pages of the rows finished in month m. */
  function MonthPages(rows: Table, m: Month): int
    decreases |rows|
  {
    if |rows| == 0 then 0
    else MonthPages(rows[..|rows| - 1], m) + (if InMonth(rows[|rows| - 1], m) then rows[|rows| - 1].pages else 0)
  }

  /** The pages of all rows that carry a date. */
  function DatedPages(rows: Table): int
    decreases |rows|
  {
    if |rows| == 0 then 0
    else DatedPages(rows[..|rows| - 1]) + (if rows[|rows| - 1].finished.Some? then rows[|rows| - 1].pages else 0)
  }

  /** The months in which some row was finished. */
  function DatedMonths(rows: Table): set<Month> {
    set i | 0 <= i < |rows| && rows[i].finished.Some? :: MonthOf(rows[i].finished.value)
  }

  lemma ChronoCons(b: Bar, bars: seq<Bar>)
    requires Chronological(bars)
    requires forall k :: k in Months(bars) ==> Before(b.month, k)
    ensures Chronological([b] + bars)
  {
    var r := [b] + bars;
    forall i, j | 0 <= i < j < |r|
      ensures Before(r[i].month, r[j].month)
    {
      assert r[j] == bars[j - 1];
      assert bars[j - 1].month in Months(bars);
      if i > 0 {
        assert r[i] == bars[i - 1];
      }
    }
  }

  lemma MonthsCons(b: Bar, bars: seq<Bar>)
    ensures Months([b] + bars) == {b.month} + Months(bars)
  {
    var r := [b] + bars;
    forall k | k in Months(r)
      ensures k in {b.month} + Months(bars)
    {
      var i :| 0 <= i < |r| && r[i].month == k;
      if i > 0 {
        assert r[i] == bars[i - 1];
      }
    }
    forall k | k in Months(bars)
      ensures k in Months(r)
    {
      var i :| 0 <= i < |bars| && bars[i].month == k;
      assert r[i + 1] == bars[i];
    }
    assert r[0] == b;
  }

  /** Adds p pages to month m's bar, opening a new bar at its place in time when m has none. */
  function AddTo(bars: seq<Bar>, m: Month, p: int): (r: seq<Bar>)
    requires Chronological(bars)
    ensures Chronological(r)
    ensures Months(r) == Months(bars) + {m}
    ensures forall k :: Get(r, k) == Get(bars, k) + (if k == m then p else 0)
    ensures Total(r) == Total(bars) + p
    decreases |bars|
  {
    if |bars| == 0 then
      assert Months([Bar(m, p)]) == {m} by {
        MonthsCons(Bar(m, p), []);
      }
      [Bar(m, p)]
    else
      var b := bars[0];
      var rest := bars[1..];
      assert bars == [b] + rest;
      MonthsCons(b, rest);
      assert Chronological(rest);
      if b.month == m then
        var r := [Bar(m, b.pages + p)] + rest;
        MonthsCons(Bar(m, b.pages + p), rest);
        ChronoCons(Bar(m, b.pages + p), rest);
        r
      else if Before(m, b.month) then
        var r := [Bar(m, p)] + bars;
        MonthsCons(Bar(m, p), bars);
        ChronoCons(Bar(m, p), bars);
        r
      else
        var tail := AddTo(rest, m, p);
        var r := [b] + tail;
        MonthsCons(b, tail);
        ChronoCons(b, tail);
        r
  }

  /** `groupby('Month')['Pages'].sum().sort_index()`: one bar per month that has a dated row, in
      chronological order, each as high as the pages finished in that month; undated rows add to
      no bar, so the bars together hold exactly the pages of the dated rows. */
  function MonthlyPages(rows: Table): (r: seq<Bar>)
    ensures Chronological(r)
    ensures Months(r) == DatedMonths(rows)
    ensures forall k :: Get(r, k) == MonthPages(rows, k)
    ensures Total(r) == DatedPages(rows)
    decreases |rows|
  {
    if |rows| == 0 then
      assert Months([]) == {};
      []
    else
      var n := |rows| - 1;
      var prefix := rows[..n];
      var x := rows[n];
      var bars := MonthlyPages(prefix);
      assert DatedMonths(rows) == DatedMonths(prefix) + (if x.finished.Some? then {MonthOf(x.finished.value)} else {}) by {
        forall k | k in DatedMonths(rows)
          ensures k in DatedMonths(prefix) || (x.finished.Some? && k == MonthOf(x.finished.value))
        {
          var i :| 0 <= i < |rows| && rows[i].finished.Some? && MonthOf(rows[i].finished.value) == k;
          if i < n {
            assert prefix[i] == rows[i];
          }
        }
        forall k | k in DatedMonths(prefix)
          ensures k in DatedMonths(rows)
        {
          var i :| 0 <= i < |prefix| && prefix[i].finished.Some? && MonthOf(prefix[i].finished.value) == k;
          assert rows[i] == prefix[i];
        }
      }
      if x.finished.Some? then AddTo(bars, MonthOf(x.finished.value), x.pages) else bars
  }

  /** In a chronological chart the bar at position i is the only one for its month. */
  lemma {:induction false} GetAt(bars: seq<Bar>, i: nat)
    requires Chronological(bars) && i < |bars|
    ensures Get(bars, bars[i].month) == bars[i].pages
    decreases |bars|
  {
    var m := bars[i].month;
    if i == 0 {
      GetAbsent(bars[1..], m);
    } else {
      assert Before(bars[0].month, m);
      assert bars[1..][i - 1] == bars[i];
      GetAt(bars[1..], i - 1);
    }
  }

  /** A chart whose every bar is later than m has nothing for m. */
  lemma {:induction false} GetAbsent(bars: seq<Bar>, m: Month)
    requires forall j :: 0 <= j < |bars| ==> Before(m, bars[j].month)
    ensures Get(bars, m) == 0
    decreases |bars|
  {
    if |bars| > 0 {
      GetAbsent(bars[1..], m);
    }
  }

  /** Each bar of the monthly chart is the page total of the rows finished in its month. */
  lemma BarIsMonthSum(rows: Table, i: nat)
    requires i < |MonthlyPages(rows)|
    ensures MonthlyPages(rows)[i].pages == MonthPages(rows, MonthlyPages(rows)[i].month)
  {
    GetAt(MonthlyPages(rows), i);
  }

  /** Rows whose key `keep` holds, in their original order: a boolean-mask selection. */
  function Filter(rows: Table, keep: Book -> bool): (r: Table)
    ensures |r| <= |rows|
    ensures |r| == 0 <==> forall i :: 0 <= i < |rows| ==> !keep(rows[i])
    ensures forall i :: 0 <= i < |r| ==> keep(r[i])
    ensures forall b :: multiset(r)[b] == if keep(b) then multiset(rows)[b] else 0
    decreases |rows|
  {
    if |rows| == 0 then []
    else
      var n := |rows| - 1;
      var rest := Filter(rows[..n], keep);
      LastSplit(rows);
      if keep(rows[n]) then rest + [rows[n]] else rest
  }

  /** A mask that keeps every row selects the whole table. */
  lemma {:induction false} FilterAll(rows: Table, keep: Book -> bool)
    requires forall i :: 0 <= i < |rows| ==> keep(rows[i])
    ensures Filter(rows, keep) == rows
    decreases |rows|
  {
    if |rows| > 0 {
      var n := |rows| - 1;
      FilterAll(rows[..n], keep);
      LastSplit(rows);
    }
  }

  /** Selecting from a table with one more row. */
  lemma FilterSnoc(rows: Table, x: Book, keep: Book -> bool)
    ensures Filter(rows + [x], keep) == if keep(x) then Filter(rows, keep) + [x] else Filter(rows, keep)
  {
    assert (rows + [x])[..|rows|] == rows;
  }

  /** One more row adds its pages to the total of its own month only. */
  lemma MonthPagesSnoc(rows: Table, x: Book, m: Month)
    ensures MonthPages(rows + [x], m) == MonthPages(rows, m) + (if InMonth(x, m) then x.pages else 0)
  {
    assert (rows + [x])[..|rows|] == rows;
  }

  /** A row is selected exactly when it is in the table and the mask keeps it. */
  lemma FilterMember(rows: Table, keep: Book -> bool, b: Book)
    ensures b in Filter(rows, keep) <==> b in rows && keep(b)
  {
    var r := Filter(rows, keep);
    assert b in r <==> multiset(r)[b] > 0;
    assert b in rows <==> multiset(rows)[b] > 0;
  }
}

=== FILE: order_input.dfy ===
/** The text side of a manual reorder: the user lists the current 1-based positions separated by
    commas ("3,1,2"), the list becomes 0-based indices, and the registry is rebuilt in that order. */
module OrderInput {
  import opened Base
  import opened Text
  import opened Perm
  import opened GenreRegistry

  /** Every piece is text int() accepts. */
  predicate AllNumbers(pieces: seq<string>) {
    forall i :: 0 <= i < |pieces| ==> ParseInt(pieces[i]).Some?
  }

  /** `[int(i) - 1 for i in pieces]`: every piece must be an integer, or the whole list fails. */
  function ZeroBased(pieces: seq<string>): (r: Option<seq<int>>)
    ensures r.Some? <==> AllNumbers(pieces)
    ensures r.Some? ==> |r.value| == |pieces|
    ensures r.Some? ==> forall i :: 0 <= i < |pieces| ==> r.value[i] + 1 == ParseInt(pieces[i]).value
  {
    if AllNumbers(pieces) then
      Some(seq(|pieces|, i requires 0 <= i < |pieces| => ParseInt(pieces[i]).value - 1))
    else None
  }

  /** The reply to the reorder prompt, stripped and split on commas, as 0-based indices. */
  function ParseOrder(text: string): (r: Option<seq<int>>)
    ensures r.Some? <==> AllNumbers(Split(Trim(text), ','))
    ensures r.Some? ==> |r.value| == |Split(Trim(text), ',')|
    ensures r.Some? ==> forall i :: 0 <= i < |r.value| ==>
      r.value[i] + 1 == ParseInt(Split(Trim(text), ',')[i]).value
  {
    var pieces := Split(Trim(text), ',');
    ZeroBased(pieces)
  }

  /** The reply a user types for the 1-based order ns: the numbers joined by commas. */
  function FormatOrder(ns: seq<nat>): string {
    Join(seq(|ns|, i requires 0 <= i < |ns| => NatToString(ns[i])), ',')
  }

  predicate NoSpace(s: string) {
    forall k :: 0 <= k < |s| ==> !IsSpace(s[k])
  }

  lemma {:induction false} JoinNoSpace(parts: seq<string>, sep: char)
    requires !IsSpace(sep)
    requires forall i :: 0 <= i < |parts| ==> NoSpace(parts[i])
    ensures NoSpace(Join(parts, sep))
    decreases |parts|
  {
    if |parts| > 1 {
      JoinNoSpace(parts[1..], sep);
    }
  }

  /** One number of the reply: digits only, and int() reads it back. */
  lemma PieceFacts(n: nat)
    ensures NoSpace(NatToString(n)) && ',' !in NatToString(n)
    ensures ParseInt(NatToString(n)) == Some(n)
  {
    DigitsOnly(NatToString(n));
    IntRoundTrip(n);
  }

  /** Digits are neither whitespace nor a comma. */
  lemma DigitsOnly(d: string)
    requires AllDigits(d)
    ensures NoSpace(d) && ',' !in d
  {
    forall k | 0 <= k < |d|
      ensures !IsSpace(d[k]) && d[k] != ','
    {
      assert IsDigit(d[k]);
    }
  }

  function Pieces(ns: seq<nat>): seq<string> {
    seq(|ns|, i requires 0 <= i < |ns| => NatToString(ns[i]))
  }

  /** The formatted reply has no surrounding whitespace and splits back into its numbers. */
  lemma {:induction false} FormatSplits(ns: seq<nat>)
    requires |ns| > 0
    ensures Split(Trim(FormatOrder(ns)), ',') == Pieces(ns)
    ensures forall i :: 0 <= i < |ns| ==> ParseInt(Pieces(ns)[i]) == Some(ns[i])
  {
    var parts := Pieces(ns);
    var text := FormatOrder(ns);
    forall i | 0 <= i < |parts|
      ensures NoSpace(parts[i]) && ',' !in parts[i]
      ensures ParseInt(parts[i]) == Some(ns[i])
    {
      PieceFacts(ns[i]);
    }
    JoinNoSpace(parts, ',');
    assert Stripped(text);
    TrimStripped(text);
    SplitJoin(parts, ',');
  }

  /** A 1-based order as the 0-based indices the code computes from it. */
  function Shifted(ns: seq<nat>): seq<int> {
    seq(|ns|, i requires 0 <= i < |ns| => ns[i] as int - 1)
  }

  /** Parsing the reply for a 1-based order gives that order shifted to 0-based. */
  lemma {:induction false} OrderRoundTrip(ns: seq<nat>)
    requires |ns| > 0
    ensures ParseOrder(FormatOrder(ns)) == Some(Shifted(ns))
  {
    FormatSplits(ns);
    ZeroBasedOf(Pieces(ns), ns);
  }

  /** Pieces that each read back as the matching number give that list, shifted to 0-based. */
  lemma ZeroBasedOf(pieces: seq<string>, ns: seq<nat>)
    requires |pieces| == |ns|
    requires forall i :: 0 <= i < |ns| ==> ParseInt(pieces[i]) == Some(ns[i])
    ensures ZeroBased(pieces) == Some(Shifted(ns))
  {
    assert forall i :: 0 <= i < |pieces| ==> ParseInt(pieces[i]).Some?;
    var z := ZeroBased(pieces).value;
    forall i | 0 <= i < |ns|
      ensures z[i] == Shifted(ns)[i]
    {
    }
    assert z == Shifted(ns);
  }

  /** A blank reply never parses: it splits into one empty piece, and int('') raises. */
  lemma BlankOrderFails(text: string)
    requires Trim(text) == ""
    ensures ParseOrder(text) == None
  {
    assert Split(Trim(text), ',') == [""];
    ParseEmpty();
    assert ParseInt([""][0]).None?;
  }

  /** reorder_genres: the registry it returns. A reply that does not parse, or whose indices are
      not a permutation of the current positions, returns the registry unchanged. */
  function ReorderFromText(reg: Registry, text: string): (r: Registry)
    ensures ParseOrder(text).None? ==> r == reg
    ensures ParseOrder(text).Some? && !IsPermutation(ParseOrder(text).value, |reg|) ==> r == reg
    ensures ParseOrder(text).Some? && IsPermutation(ParseOrder(text).value, |reg|) ==>
      |r| == |reg| && forall i :: 0 <= i < |reg| ==> r[i] == reg[ParseOrder(text).value[i]]
  {
    match ParseOrder(text)
    case None => reg
    case Some(indices) =>
      match Reorder(reg, indices)
      case Err(_) => reg
      case Ok(r) => r
  }

  /** The reply for a 1-based order either rebuilds the registry in that order, when the order
      names every position exactly once, or leaves it as it was. */
  lemma FormattedReorder(reg: Registry, ns: seq<nat>)
    requires |ns| > 0
    ensures IsPermutation(Shifted(ns), |reg|) ==>
      |ReorderFromText(reg, FormatOrder(ns))| == |reg| &&
      forall i :: 0 <= i < |reg| ==> ReorderFromText(reg, FormatOrder(ns))[i] == reg[Shifted(ns)[i]]
    ensures !IsPermutation(Shifted(ns), |reg|) ==> ReorderFromText(reg, FormatOrder(ns)) == reg
  {
    OrderRoundTrip(ns);
  }

  /** A reply that names some position twice leaves the registry unchanged. */
  lemma RepeatedPosition(reg: Registry, ns: seq<nat>, i: nat, j: nat)
    requires i < j < |ns| && ns[i] == ns[j]
    ensures ReorderFromText(reg, FormatOrder(ns)) == reg
  {
    FormattedReorder(reg, ns);
    assert Shifted(ns)[i] == Shifted(ns)[j];
  }
}

=== FILE: perm.dfy ===
/** Permutations of the positions 0..n-1: the shape a manual genre reorder must have. */
module Perm {
  import opened Unique

  /** Python's list(range(n)). */
  function Range(n: nat): seq<int> {
    seq(n, i requires 0 <= i < n => i)
  }

  /** Every position 0..n-1 is named exactly once. */
  predicate IsPermutation(p: seq<int>, n: nat) {
    && |p| == n
    && (forall i :: 0 <= i < |p| ==> 0 <= p[i] < n)
    && NoDup(p)
  }

  /** Closes the gap left by v: values above v move down by one. */
  function Squeeze(xs: seq<int>, v: int): seq<int> {
    seq(|xs|, i requires 0 <= i < |xs| => if xs[i] > v then xs[i] - 1 else xs[i])
  }

  /** Pigeonhole: distinct values drawn from 0..m-1 number at most m. */
  lemma {:induction false} DistinctBound(xs: seq<int>, m: nat)
    requires NoDup(xs)
    requires forall i :: 0 <= i < |xs| ==> 0 <= xs[i] < m
    ensures |xs| <= m
    decreases |xs|
  {
    if |xs| > 0 {
      var n := |xs| - 1;
      var v := xs[n];
      var ys := Squeeze(xs[..n], v);
      forall i | 0 <= i < |ys|
        ensures 0 <= ys[i] < m - 1
      {
        assert xs[i] != v;
      }
      forall i, j | 0 <= i < j < |ys|
        ensures ys[i] != ys[j]
      {
        assert xs[i] != xs[j] && xs[i] != v && xs[j] != v;
      }
      DistinctBound(ys, m - 1);
    }
  }

  /** A permutation of 0..n-1 names every position. */
  lemma {:induction false} PermutationCovers(p: seq<int>, n: nat, v: int)
    requires IsPermutation(p, n)
    requires 0 <= v < n
    ensures v in p
  {
    if v !in p {
      var ys := Squeeze(p, v);
      forall i | 0 <= i < |ys|
        ensures 0 <= ys[i] < n - 1
      {
        assert p[i] != v;
      }
      forall i, j | 0 <= i < j < |ys|
        ensures ys[i] != ys[j]
      {
        assert p[i] != p[j] && p[i] != v && p[j] != v;
      }
      DistinctBound(ys, n - 1);
      assert false;
    }
  }

  /** The sequence p without its element at position k. */
  function RemoveAt(p: seq<int>, k: nat): seq<int>
    requires k < |p|
  {
    p[..k] + p[k + 1..]
  }

  lemma RemoveAtMultiset(p: seq<int>, k: nat)
    requires k < |p|
    ensures multiset(p) == multiset(RemoveAt(p, k)) + multiset{p[k]}
  {
    assert p == p[..k] + [p[k]] + p[k + 1..];
  }

  /** The element of RemoveAt(p, k) at position a came from position a or a + 1 of p. */
  function Origin(k: nat, a: nat): nat {
    if a < k then a else a + 1
  }

  lemma RemoveAtIndex(p: seq<int>, k: nat)
    requires k < |p|
    ensures |RemoveAt(p, k)| == |p| - 1
    ensures forall a :: 0 <= a < |p| - 1 ==> RemoveAt(p, k)[a] == p[Origin(k, a)]
  {
  }

  lemma {:induction false} PermutationToMultiset(p: seq<int>, n: nat)
    requires IsPermutation(p, n)
    ensures multiset(p) == multiset(Range(n))
    decreases n
  {
    if n > 0 {
      var m := n - 1;
      assert Range(n) == Range(m) + [m];
      PermutationCovers(p, n, m);
      var k :| 0 <= k < |p| && p[k] == m;
      var q := RemoveAt(p, k);
      RemoveAtIndex(p, k);
      forall a | 0 <= a < |q|
        ensures 0 <= q[a] < m
      {
        assert q[a] == p[Origin(k, a)] && Origin(k, a) != k;
      }
      forall a, b | 0 <= a < b < |q|
        ensures q[a] != q[b]
      {
        assert Origin(k, a) < Origin(k, b);
      }
      PermutationToMultiset(q, m);
      RemoveAtMultiset(p, k);
    }
  }

  /** Putting the largest position back into a permutation of 0..m-1 gives one of 0..m. */
  lemma InsertLargest(p: seq<int>, k: nat, m: nat)
    requires k < |p| && p[k] == m
    requires IsPermutation(RemoveAt(p, k), m)
    ensures IsPermutation(p, m + 1)
  {
    var q := RemoveAt(p, k);
    RemoveAtIndex(p, k);
    forall i | 0 <= i < |p|
      ensures 0 <= p[i] <= m
    {
      if i < k {
        assert p[i] == q[i];
      } else if i > k {
        assert p[i] == q[i - 1];
      }
    }
    forall i, j | 0 <= i < j < |p|
      ensures p[i] != p[j]
    {
      if j < k {
        assert p[i] == q[i] && p[j] == q[j];
      } else if i > k {
        assert p[i] == q[i - 1] && p[j] == q[j - 1];
      } else if i < k < j {
        assert p[i] == q[i] && p[j] == q[j - 1];
      } else if i == k {
        assert p[j] == q[j - 1];
      } else {
        assert p[i] == q[i];
      }
    }
  }

  lemma {:induction false} MultisetToPermutation(p: seq<int>, n: nat)
    requires multiset(p) == multiset(Range(n))
    ensures IsPermutation(p, n)
    decreases n
  {
    if n == 0 {
      assert |multiset(p)| == |p|;
    } else {
      var m := n - 1;
      assert Range(n) == Range(m) + [m];
      assert m in multiset(Range(n));
      assert m in p;
      var k :| 0 <= k < |p| && p[k] == m;
      var q := RemoveAt(p, k);
      RemoveAtMultiset(p, k);
      assert multiset(q) == multiset(p) - multiset{m};
      assert multiset(Range(m)) == multiset(Range(n)) - multiset{m};
      MultisetToPermutation(q, m);
      InsertLargest(p, k, m);
    }
  }

  /** `sorted(p) == list(range(n))` holds exactly when p names every position 0..n-1 once:
      both say p and range(n) hold the same values with the same multiplicities. */
  lemma PermutationMultiset(p: seq<int>, n: nat)
    ensures IsPermutation(p, n) <==> multiset(p) == multiset(Range(n))
  {
    if IsPermutation(p, n) {
      PermutationToMultiset(p, n);
    }
    if multiset(p) == multiset(Range(n)) {
      MultisetToPermutation(p, n);
    }
  }

  /** The reorder check done in one pass with a table of positions already seen; it accepts
      exactly the index lists whose sorted form is 0..n-1. */
  method CheckOrder(indices: seq<int>, n: nat) returns (ok: bool)
    ensures ok <==> multiset(indices) == multiset(Range(n))
  {
    PermutationMultiset(indices, n);
    if |indices| != n {
      return false;
    }
    var seen := seq(n, _ => false);
    var i := 0;
    while i < n
      invariant 0 <= i <= n && |seen| == n
      invariant forall k :: 0 <= k < i ==> 0 <= indices[k] < n
      invariant forall k, l :: 0 <= k < l < i ==> indices[k] != indices[l]
      invariant forall v :: 0 <= v < n ==> (seen[v] <==> v in indices[..i])
    {
      var v := indices[i];
      if v < 0 || v >= n {
        return false;
      }
      if seen[v] {
        assert v in indices[..i];
        return false;
      }
      assert indices[..i + 1] == indices[..i] + [v];
      seen := seen[v := true];
      i := i + 1;
    }
    assert indices[..n] == indices;
    return true;
  }

  /** The first position of v in p. */
  function IndexIn(p: seq<int>, v: int): (k: nat)
    requires v in p
    ensures k < |p| && p[k] == v
    decreases |p|
  {
    if p[0] == v then 0 else 1 + IndexIn(p[1..], v)
  }

  lemma {:induction false} CoversAll(p: seq<int>)
    requires IsPermutation(p, |p|)
    ensures forall v :: 0 <= v < |p| ==> v in p
  {
    forall v | 0 <= v < |p|
      ensures v in p
    {
      PermutationCovers(p, |p|, v);
    }
  }

  /** The inverse permutation: it sends each value of p back to its position. */
  function Inverse(p: seq<int>): (q: seq<int>)
    requires IsPermutation(p, |p|)
    ensures IsPermutation(q, |p|)
    ensures forall i :: 0 <= i < |p| ==> q[p[i]] == i
    ensures forall v :: 0 <= v < |p| ==> p[q[v]] == v
  {
    CoversAll(p);
    var q := seq(|p|, v requires 0 <= v < |p| => IndexIn(p, v));
    assert forall a, b :: 0 <= a < b < |q| ==> p[q[a]] != p[q[b]];
    q
  }
}

=== FILE: registry.dfy ===
/** The genre registry: an insertion-ordered dictionary from genre name to display colour,
    held as a sequence of entries with distinct names. Its order is the legend order. */
module GenreRegistry {
  import opened Base
  import opened Perm

  datatype Entry = Entry(name: string, color: string)

  type Registry = seq<Entry>

  /** Dictionary keys are unique. */
  predicate WellFormed(reg: Registry) {
    forall i, j :: 0 <= i < j < |reg| ==> reg[i].name != reg[j].name
  }

  /** list(reg.keys()), in order. */
  function Names(reg: Registry): seq<string> {
    seq(|reg|, i requires 0 <= i < |reg| => reg[i].name)
  }

  /** Where name sits in the registry: the first entry carrying it. */
  function Find(reg: Registry, name: string): (r: Option<nat>)
    ensures r.None? <==> name !in Names(reg)
    ensures r.Some? ==> r.value < |reg| && reg[r.value].name == name
    ensures r.Some? ==> forall j :: 0 <= j < r.value ==> reg[j].name != name
    decreases |reg|
  {
    if |reg| == 0 then None
    else
      assert Names(reg) == [reg[0].name] + Names(reg[1..]);
      if reg[0].name == name then Some(0)
      else
        var rest := Find(reg[1..], name);
        if rest.None? then None else Some(rest.value + 1)
  }

  /** reg.get(name, default): the registered colour, or the caller's fallback. */
  function ColorFor(reg: Registry, name: string, default: string): (r: string)
    ensures name !in Names(reg) ==> r == default
    ensures name in Names(reg) ==> Entry(name, r) in reg
    ensures WellFormed(reg) ==> forall c :: Entry(name, c) in reg ==> r == c
  {
    match Find(reg, name)
    case None =>
      assert forall k :: 0 <= k < |reg| ==> Names(reg)[k] == reg[k].name;
      default
    case Some(i) =>
      assert WellFormed(reg) ==> forall k :: 0 <= k < |reg| && reg[k].name == name ==> k == i;
      reg[i].color
  }

  /** In a well-formed registry the entry at position i is the one Find locates for its name. */
  lemma FindAt(reg: Registry, i: nat)
    requires WellFormed(reg) && i < |reg|
    ensures Find(reg, reg[i].name) == Some(i)
  {
    assert Names(reg)[i] == reg[i].name;
  }

  // ---------------------------------------------------------------------------
  // add_new_genre_color
  // ---------------------------------------------------------------------------

  /** Adds a genre at the end of the order, unless the name is already registered. */
  function Add(reg: Registry, name: string, color: string): (r: Result<Registry>)
    ensures r.Err? <==> name in Names(reg)
    ensures r.Err? ==> r.error == AlreadyExists
    ensures r.Ok? ==> |r.value| == |reg| + 1 && r.value[..|reg|] == reg
    ensures r.Ok? ==> r.value[|reg|] == Entry(name, color)
    ensures r.Ok? && WellFormed(reg) ==> WellFormed(r.value)
  {
    if name in Names(reg) then Err(AlreadyExists)
    else
      var r := reg + [Entry(name, color)];
      assert forall i :: 0 <= i < |reg| ==> reg[i].name == Names(reg)[i];
      Ok(r)
  }

  /** After an add, the added genre reads back its colour and every other genre its earlier one. */
  lemma AddLookup(reg: Registry, name: string, color: string, other: string, default: string)
    requires WellFormed(reg)
    requires Add(reg, name, color).Ok?
    ensures ColorFor(Add(reg, name, color).value, name, default) == color
    ensures other != name ==>
      ColorFor(Add(reg, name, color).value, other, default) == ColorFor(reg, other, default)
  {
    var r := Add(reg, name, color).value;
    FindAt(r, |reg|);
    if other != name {
      match Find(reg, other)
      case None =>
        assert forall i :: 0 <= i < |r| ==> r[i].name == Names(r)[i];
        assert forall i :: 0 <= i < |reg| ==> reg[i].name == Names(reg)[i];
        assert other !in Names(r);
      case Some(i) =>
        assert r[i] == reg[i];
        FindAt(r, i);
    }
  }

  // ---------------------------------------------------------------------------
  // rename_or_delete_genre
  // ---------------------------------------------------------------------------

  /** `del reg[name]`: the entry leaves, the others keep their order. */
  function Delete(reg: Registry, name: string): (r: Result<Registry>)
    ensures r.Err? <==> name !in Names(reg)
    ensures r.Err? ==> r.error == NotFound
    ensures r.Ok? ==> exists k :: 0 <= k < |reg| && reg[k].name == name && r.value == reg[..k] + reg[k + 1..]
    ensures r.Ok? && WellFormed(reg) ==> WellFormed(r.value) && name !in Names(r.value)
  {
    match Find(reg, name)
    case None => Err(NotFound)
    case Some(k) =>
      CutEntry(reg, k);
      Ok(Cut(reg, k))
  }

  function Cut(reg: Registry, k: nat): Registry
    requires k < |reg|
  {
    reg[..k] + reg[k + 1..]
  }

  /** The registry with the entry at k cut out: the rest in order, and in a well-formed registry
      no other entry carries the cut name. */
  lemma CutEntry(reg: Registry, k: nat)
    requires k < |reg|
    ensures |Cut(reg, k)| == |reg| - 1
    ensures forall i :: 0 <= i < |reg| - 1 ==> Cut(reg, k)[i] == reg[if i < k then i else i + 1]
    ensures WellFormed(reg) ==> WellFormed(Cut(reg, k))
    ensures WellFormed(reg) ==> reg[k].name !in Names(Cut(reg, k))
  {
    var r := Cut(reg, k);
    assert forall i :: 0 <= i < |r| ==> r[i] == reg[if i < k then i else i + 1];
    assert forall i :: 0 <= i < |r| ==> r[i].name == Names(r)[i];
  }

  /** `reg[to] = reg.pop(from)`: the colour registered under `from` moves to the name `to`, and
      because the key is popped and then assigned, the renamed entry moves to the END of the order. */
  function Rename(reg: Registry, from: string, to: string): (r: Result<Registry>)
    ensures r.Ok? <==> from in Names(reg) && to !in Names(reg)
    ensures from !in Names(reg) ==> r == Err(NotFound)
    ensures from in Names(reg) && to in Names(reg) ==> r == Err(AlreadyExists)
    ensures r.Ok? ==> Delete(reg, from).Ok? && |r.value| == |reg|
    ensures r.Ok? ==> r.value[..|reg| - 1] == Delete(reg, from).value
    ensures r.Ok? ==> r.value[|reg| - 1] == Entry(to, ColorFor(reg, from, ""))
  {
    match Find(reg, from)
    case None => Err(NotFound)
    case Some(k) =>
      if to in Names(reg) then Err(AlreadyExists)
      else
        var rest := Delete(reg, from).value;
        Ok(rest + [Entry(to, reg[k].color)])
  }

  /** After a delete, every other genre reads back the colour it had. */
  lemma DeleteLookup(reg: Registry, name: string, other: string, default: string)
    requires WellFormed(reg)
    requires Delete(reg, name).Ok?
    requires other != name
    ensures ColorFor(Delete(reg, name).value, other, default) == ColorFor(reg, other, default)
  {
    var rest := Delete(reg, name).value;
    var k := Find(reg, name).value;
    CutEntry(reg, k);
    assert rest == Cut(reg, k);
    match Find(reg, other)
    case None =>
      assert forall i :: 0 <= i < |rest| ==> rest[i].name == Names(rest)[i];
      assert forall i :: 0 <= i < |reg| ==> reg[i].name == Names(reg)[i];
      assert other !in Names(rest);
    case Some(i) =>
      var j := if i < k then i else i - 1;
      assert rest[j] == reg[i];
      FindAt(rest, j);
  }

  /** Rename keeps the registry well formed, hands the colour of `from` to `to`, leaves `from`
      unregistered, and changes no other genre's colour. */
  lemma RenameLookup(reg: Registry, from: string, to: string, other: string, default: string)
    requires WellFormed(reg)
    requires Rename(reg, from, to).Ok?
    ensures WellFormed(Rename(reg, from, to).value)
    ensures ColorFor(Rename(reg, from, to).value, to, default) == ColorFor(reg, from, default)
    ensures ColorFor(Rename(reg, from, to).value, from, default) == default
    ensures other != from && other != to ==>
      ColorFor(Rename(reg, from, to).value, other, default) == ColorFor(reg, other, default)
  {
    var r := Rename(reg, from, to).value;
    var rest := Delete(reg, from).value;
    var color := ColorFor(reg, from, "");
    assert ColorFor(reg, from, default) == color;
    assert to !in Names(rest) by {
      var k := Find(reg, from).value;
      CutEntry(reg, k);
      assert rest == Cut(reg, k);
      assert forall i :: 0 <= i < |rest| ==> rest[i].name == Names(rest)[i];
      assert forall i :: 0 <= i < |reg| ==> reg[i].name == Names(reg)[i];
    }
    assert r == Add(rest, to, color).value;
    AddLookup(rest, to, color, from, default);
    AddLookup(rest, to, color, other, default);
    if other != from && other != to {
      DeleteLookup(reg, from, other, default);
    }
  }

  // ---------------------------------------------------------------------------
  // reorder_genres
  // ---------------------------------------------------------------------------

  /** Rebuilds the dictionary in the order the (0-based) index list gives, provided the sorted
      index list is exactly 0..n-1; any other list is refused. */
  function Reorder(reg: Registry, indices: seq<int>): (r: Result<Registry>)
    ensures r.Ok? <==> IsPermutation(indices, |reg|)
    ensures r.Err? ==> r.error == NotPermutation
    ensures r.Ok? ==> |r.value| == |reg|
    ensures r.Ok? ==> forall i :: 0 <= i < |reg| ==> r.value[i] == reg[indices[i]]
  {
    PermutationMultiset(indices, |reg|);
    if multiset(indices) != multiset(Range(|reg|)) then Err(NotPermutation)
    else Ok(seq(|reg|, i requires 0 <= i < |reg| => reg[indices[i]]))
  }

  /** A successful reorder is a bijection on entries: the same (name, colour) pairs, still with
      distinct names, and reordering by the inverse list restores the original. */
  lemma ReorderBijection(reg: Registry, indices: seq<int>)
    requires WellFormed(reg)
    requires Reorder(reg, indices).Ok?
    ensures WellFormed(Reorder(reg, indices).value)
    ensures forall e :: e in Reorder(reg, indices).value <==> e in reg
    ensures Reorder(Reorder(reg, indices).value, Inverse(indices)) == Ok(reg)
  {
    var r := Reorder(reg, indices).value;
    Permuted(reg, indices, r);
    Unpermuted(reg, indices, r);
  }

  /** Entries placed by a permutation are the same entries, still with distinct names. */
  lemma Permuted(reg: Registry, indices: seq<int>, r: Registry)
    requires IsPermutation(indices, |reg|) && |r| == |reg|
    requires forall i :: 0 <= i < |reg| ==> r[i] == reg[indices[i]]
    ensures WellFormed(reg) ==> WellFormed(r)
    ensures forall e :: e in r <==> e in reg
  {
    var inv := Inverse(indices);
    forall e | e in reg
      ensures e in r
    {
      var j :| 0 <= j < |reg| && reg[j] == e;
      assert r[inv[j]] == e;
    }
  }

  /** Placing by the inverse permutation puts every entry back. */
  lemma Unpermuted(reg: Registry, indices: seq<int>, r: Registry)
    requires IsPermutation(indices, |reg|) && |r| == |reg|
    requires forall i :: 0 <= i < |reg| ==> r[i] == reg[indices[i]]
    ensures Reorder(r, Inverse(indices)) == Ok(reg)
  {
    var inv := Inverse(indices);
    var back := Reorder(r, inv);
    assert back.Ok?;
    assert back.value == reg;
  }
}

=== FILE: sums.dfy ===
/** Sums of integer columns, and the facts about them the charts' totals rest on. */
module Sums {
  import opened Unique

  function Sum(xs: seq<int>): int
    decreases |xs|
  {
    if |xs| == 0 then 0 else xs[0] + Sum(xs[1..])
  }

  /** Adding a value at the end adds it to the sum. */
  lemma {:induction false} SumSnoc(xs: seq<int>, v: int)
    ensures Sum(xs + [v]) == Sum(xs) + v
    decreases |xs|
  {
    if |xs| > 0 {
      assert (xs + [v])[1..] == xs[1..] + [v];
      SumSnoc(xs[1..], v);
    }
  }

  /** The sum of a pointwise sum is the sum of the sums. */
  lemma {:induction false} SumAdd(a: seq<int>, b: seq<int>, c: seq<int>)
    requires |a| == |b| == |c|
    requires forall i :: 0 <= i < |c| ==> c[i] == a[i] + b[i]
    ensures Sum(c) == Sum(a) + Sum(b)
    decreases |c|
  {
    if |c| > 0 {
      SumAdd(a[1..], b[1..], c[1..]);
    }
  }

  /** The column vector that is v under key k and 0 elsewhere. */
  function Indicator<K(==)>(keys: seq<K>, k: K, v: int): (r: seq<int>)
    ensures |r| == |keys|
  {
    seq(|keys|, i requires 0 <= i < |keys| => if keys[i] == k then v else 0)
  }

  /** Over keys that are all different, that vector sums to v when k is a key and to 0 otherwise. */
  lemma {:induction false} SumIndicator<K>(keys: seq<K>, k: K, v: int)
    requires NoDup(keys)
    ensures Sum(Indicator(keys, k, v)) == if k in keys then v else 0
    decreases |keys|
  {
    if |keys| > 0 {
      var rest := keys[1..];
      assert NoDup(rest);
      assert Indicator(keys, k, v)[1..] == Indicator(rest, k, v);
      SumIndicator(rest, k, v);
      if keys[0] == k {
        assert k !in rest;
      }
    }
  }
}

=== FILE: text.dfy ===
/** The string handling the tracker relies on, written out: Python's str.strip(), an ASCII
    str.lower() and str.title(), str.split(sep) with a one-character separator, and int(). */
module Text {
  import opened Base

  // ---------------------------------------------------------------------------
  // Whitespace and str.strip()
  // ---------------------------------------------------------------------------

  /** Python's str.isspace() on one character: exactly the characters str.strip() removes. */
  predicate IsSpace(c: char) {
    var n := c as int;
    || (9 <= n <= 13) || (28 <= n <= 32) || n == 0x85 || n == 0xA0 || n == 0x1680
    || (0x2000 <= n <= 0x200A) || n == 0x2028 || n == 0x2029 || n == 0x202F
    || n == 0x205F || n == 0x3000
  }

  /** Neither end of s is whitespace. */
  predicate Stripped(s: string) {
    |s| > 0 ==> !IsSpace(s[0]) && !IsSpace(s[|s| - 1])
  }

  /** str.lstrip(): the suffix left after dropping leading whitespace. */
  function TrimLeft(s: string): (r: string)
    ensures |r| <= |s| && r == s[|s| - |r|..]
    ensures forall k :: 0 <= k < |s| - |r| ==> IsSpace(s[k])
    ensures |r| > 0 ==> !IsSpace(r[0])
    decreases |s|
  {
    if |s| > 0 && IsSpace(s[0]) then TrimLeft(s[1..]) else s
  }

  /** str.rstrip(): the prefix left after dropping trailing whitespace. */
  function TrimRight(s: string): (r: string)
    ensures |r| <= |s| && r == s[..|r|]
    ensures forall k :: |r| <= k < |s| ==> IsSpace(s[k])
    ensures |r| > 0 ==> !IsSpace(r[|r| - 1])
    decreases |s|
  {
    if |s| > 0 && IsSpace(s[|s| - 1]) then TrimRight(s[..|s| - 1]) else s
  }

  /** Trimming s at offset i leaves r: r is the slice of s at i, and only whitespace lies outside it. */
  predicate StripsTo(s: string, i: int, r: string) {
    && 0 <= i <= i + |r| <= |s|
    && r == s[i..i + |r|]
    && (forall k :: 0 <= k < i ==> IsSpace(s[k]))
    && (forall k :: i + |r| <= k < |s| ==> IsSpace(s[k]))
  }

  /** str.strip(): the slice of s between its leading and its trailing whitespace. */
  function Trim(s: string): (r: string)
    ensures Stripped(r)
    ensures exists i :: StripsTo(s, i, r)
  {
    TrimEnds(s);
    TrimSpan(s);
    TrimRight(TrimLeft(s))
  }

  lemma TrimEnds(s: string)
    ensures Stripped(TrimRight(TrimLeft(s)))
  {
    var l := TrimLeft(s);
    var r := TrimRight(l);
    if |r| > 0 {
      assert r[0] == l[0];
    }
  }

  lemma TrimSpan(s: string)
    ensures StripsTo(s, |s| - |TrimLeft(s)|, TrimRight(TrimLeft(s)))
  {
    SpanOf(s, TrimLeft(s), TrimRight(TrimLeft(s)));
  }

  /** A whitespace-free suffix l of s, cut down to a prefix r with only whitespace after it. */
  lemma SpanOf(s: string, l: string, r: string)
    requires |l| <= |s| && l == s[|s| - |l|..]
    requires forall k :: 0 <= k < |s| - |l| ==> IsSpace(s[k])
    requires |r| <= |l| && r == l[..|r|]
    requires forall k :: |r| <= k < |l| ==> IsSpace(l[k])
    ensures StripsTo(s, |s| - |l|, r)
  {
    var i := |s| - |l|;
    forall k | i + |r| <= k < |s|
      ensures IsSpace(s[k])
    {
      assert s[k] == l[k - i];
    }
  }

  /** lstrip() stops at the first non-whitespace character. */
  lemma {:induction false} TrimLeftAt(s: string, i: nat)
    requires i <= |s|
    requires forall k :: 0 <= k < i ==> IsSpace(s[k])
    requires i < |s| ==> !IsSpace(s[i])
    ensures TrimLeft(s) == s[i..]
    decreases i
  {
    if i > 0 {
      assert IsSpace(s[0]);
      TrimLeftAt(s[1..], i - 1);
      assert s[1..][i - 1..] == s[i..];
    }
  }

  /** rstrip() stops after the last non-whitespace character. */
  lemma {:induction false} TrimRightAt(s: string, j: nat)
    requires j <= |s|
    requires forall k :: j <= k < |s| ==> IsSpace(s[k])
    requires j > 0 ==> !IsSpace(s[j - 1])
    ensures TrimRight(s) == s[..j]
    decreases |s| - j
  {
    if j < |s| {
      assert IsSpace(s[|s| - 1]);
      TrimRightAt(s[..|s| - 1], j);
      assert s[..|s| - 1][..j] == s[..j];
    } else {
      assert s[..j] == s;
    }
  }

  /** The trailing whitespace of a suffix s[i..] lies at or after j. */
  lemma {:induction false} SuffixAt(s: string, i: nat, j: nat)
    requires i < j <= |s|
    requires forall k :: j <= k < |s| ==> IsSpace(s[k])
    requires !IsSpace(s[j - 1])
    ensures TrimRight(s[i..]) == s[i..j]
  {
    var l := s[i..];
    forall k | j - i <= k < |l|
      ensures IsSpace(l[k])
    {
      assert l[k] == s[i + k];
    }
    assert l[j - i - 1] == s[j - 1];
    TrimRightAt(l, j - i);
    assert l[..j - i] == s[i..j];
  }

  /** strip() of text that is whitespace around a slice with non-whitespace ends is that slice. */
  lemma {:induction false} TrimSlice(s: string, i: nat, j: nat)
    requires i <= j <= |s|
    requires forall k :: 0 <= k < i ==> IsSpace(s[k])
    requires forall k :: j <= k < |s| ==> IsSpace(s[k])
    requires Stripped(s[i..j])
    ensures Trim(s) == s[i..j]
  {
    if i < j {
      var m := s[i..j];
      assert s[i] == m[0] && s[j - 1] == m[|m| - 1];
      TrimLeftAt(s, i);
      SuffixAt(s, i, j);
    } else {
      TrimLeftAt(s, |s|);
    }
  }

  /** A string whose ends are not whitespace is left alone by strip(). */
  lemma {:induction false} TrimStripped(s: string)
    requires Stripped(s)
    ensures Trim(s) == s
  {
    TrimSlice(s, 0, |s|);
    assert s[0..|s|] == s;
  }

  /** strip() is idempotent. */
  lemma TrimIdempotent(s: string)
    ensures Trim(Trim(s)) == Trim(s)
  {
    TrimStripped(Trim(s));
  }

  // ---------------------------------------------------------------------------
  // Case: ASCII str.lower() and str.title()
  // ---------------------------------------------------------------------------

  predicate IsLetter(c: char) {
    ('a' <= c <= 'z') || ('A' <= c <= 'Z')
  }

  function LowerChar(c: char): char {
    if 'A' <= c <= 'Z' then (c as int + 32) as char else c
  }

  function UpperChar(c: char): char {
    if 'a' <= c <= 'z' then (c as int - 32) as char else c
  }

  /** str.lower() on ASCII letters: no upper-case letter is left, and each character keeps its
      upper-case form, so A..Z become a..z and everything else is unchanged. Letters stay letters
      and whitespace stays whitespace. */
  function Lower(s: string): (r: string)
    ensures |r| == |s|
    ensures forall k :: 0 <= k < |s| ==>
      && UpperChar(r[k]) == UpperChar(s[k]) && !('A' <= r[k] <= 'Z')
      && (IsLetter(r[k]) <==> IsLetter(s[k])) && (IsSpace(r[k]) <==> IsSpace(s[k]))
  {
    seq(|s|, i requires 0 <= i < |s| => LowerChar(s[i]))
  }

  /** str.title(): a letter becomes upper case when the character before it is not a letter
      (or it starts the string) and lower case otherwise; other characters are unchanged. */
  function Title(s: string): (r: string)
    ensures |r| == |s|
    ensures Lower(r) == Lower(s)
    ensures forall i :: 0 <= i < |s| ==> (IsSpace(r[i]) <==> IsSpace(s[i]))
  {
    var r := seq(|s|, i requires 0 <= i < |s| =>
      if i > 0 && IsLetter(s[i - 1]) then LowerChar(s[i]) else UpperChar(s[i]));
    forall i | 0 <= i < |s|
      ensures LowerChar(r[i]) == LowerChar(s[i]) && (IsSpace(r[i]) <==> IsSpace(s[i]))
    {
      CaseOf(s[i]);
    }
    LowerAgree(r, s);
    r
  }

  /** Changing the case of a character keeps its lower-case form and its whitespace-ness; a letter
      upper-cases into A..Z and lower-cases into a..z. */
  lemma CaseOf(c: char)
    ensures LowerChar(UpperChar(c)) == LowerChar(c) && LowerChar(LowerChar(c)) == LowerChar(c)
    ensures IsSpace(UpperChar(c)) == IsSpace(c) && IsSpace(LowerChar(c)) == IsSpace(c)
    ensures IsLetter(c) ==> 'A' <= UpperChar(c) <= 'Z' && 'a' <= LowerChar(c) <= 'z'
  {
  }

  /** Texts that agree letter by letter once lower-cased are equal once lower-cased. */
  lemma LowerAgree(a: string, b: string)
    requires |a| == |b|
    requires forall i :: 0 <= i < |a| ==> LowerChar(a[i]) == LowerChar(b[i])
    ensures Lower(a) == Lower(b)
  {
  }

  /** In title case a letter that starts a word is upper case and a letter that follows a letter
      is lower case. */
  lemma TitleCase(s: string)
    ensures forall i :: 0 <= i < |s| && IsLetter(s[i]) && (i == 0 || !IsLetter(s[i - 1])) ==>
      'A' <= Title(s)[i] <= 'Z'
    ensures forall i :: 0 < i < |s| && IsLetter(s[i]) && IsLetter(s[i - 1]) ==> 'a' <= Title(s)[i] <= 'z'
  {
    var t := Title(s);
    forall i | 0 <= i < |s| && IsLetter(s[i]) && (i == 0 || !IsLetter(s[i - 1]))
      ensures 'A' <= t[i] <= 'Z'
    {
      CaseOf(s[i]);
      assert t[i] == UpperChar(s[i]);
    }
    forall i | 0 < i < |s| && IsLetter(s[i]) && IsLetter(s[i - 1])
      ensures 'a' <= t[i] <= 'z'
    {
      CaseOf(s[i]);
    }
  }

  /** Title-casing is idempotent: title-cased text is already in title case. */
  lemma TitleFacts(s: string)
    ensures Title(Title(s)) == Title(s)
  {
    var t := Title(s);
    forall i | 0 <= i < |s|
      ensures IsLetter(t[i]) == IsLetter(s[i])
      ensures LowerChar(t[i]) == LowerChar(s[i])
    {
    }
  }

  /** Genre normalisation, Python's s.strip().title(): the result has no surrounding whitespace
      and compares case-insensitively equal to the stripped genre. */
  function Normalize(g: string): (r: string)
    ensures Stripped(r) && |r| == |Trim(g)|
    ensures Lower(r) == Lower(Trim(g))
  {
    Title(Trim(g))
  }

  /** Normalising twice is normalising once. */
  lemma {:induction false} NormalizeIdempotent(g: string)
    ensures Normalize(Normalize(g)) == Normalize(g)
  {
    var t := Trim(g);
    TitleFacts(t);
    assert Stripped(Title(t));
    TrimStripped(Title(t));
  }

  /** The key the genre filter compares, Python's s.lower().strip(): the lower-cased stripped text,
      since the two steps commute (LowerTrim). */
  function Fold(s: string): (r: string)
    ensures Stripped(r) && |r| == |Trim(s)|
    ensures r == Lower(Trim(s))
  {
    LowerTrim(s);
    Trim(Lower(s))
  }

  /** A yes/no answer confirms when it reads "y" once stripped and lower-cased, that is, when it
      is "y" or "Y" with any surrounding whitespace. */
  function Confirms(answer: string): (r: bool)
    ensures r <==> Trim(answer) == "y" || Trim(answer) == "Y"
  {
    var t := Trim(answer);
    LowerSingle(t, 'y');
    Lower(t) == "y"
  }

  /** A lower-case letter is the lower-case form of exactly itself and its upper-case twin. */
  lemma LowerSingle(t: string, c: char)
    requires 'a' <= c <= 'z'
    ensures Lower(t) == [c] <==> t == [c] || t == [UpperChar(c)]
  {
    if Lower(t) == [c] {
      assert |t| == 1 && LowerChar(t[0]) == c;
      assert t == [t[0]];
    }
    if t == [c] || t == [UpperChar(c)] {
      assert Lower(t) == [LowerChar(t[0])];
    }
  }

  /** lower() keeps the length and the whitespace of its argument and commutes with slicing. */
  lemma LowerSlice(s: string, a: nat, b: nat)
    requires a <= b <= |s|
    ensures |Lower(s)| == |s|
    ensures forall k :: 0 <= k < |s| ==> (IsSpace(Lower(s)[k]) <==> IsSpace(s[k]))
    ensures Lower(s[a..b]) == Lower(s)[a..b]
  {
  }

  lemma LowerTrimLeft(s: string)
    ensures TrimLeft(Lower(s)) == Lower(TrimLeft(s))
  {
    LowerSuffix(s, TrimLeft(s));
  }

  /** lstrip() of the lower-cased text cuts where lstrip() of the text cuts. */
  lemma LowerSuffix(s: string, l: string)
    requires |l| <= |s| && l == s[|s| - |l|..]
    requires forall k :: 0 <= k < |s| - |l| ==> IsSpace(s[k])
    requires |l| > 0 ==> !IsSpace(l[0])
    ensures TrimLeft(Lower(s)) == Lower(l)
  {
    var i := |s| - |l|;
    LowerSlice(s, i, |s|);
    assert s[i..|s|] == l;
    assert i < |s| ==> s[i] == l[0];
    TrimLeftAt(Lower(s), i);
  }

  lemma LowerTrimRight(s: string)
    ensures TrimRight(Lower(s)) == Lower(TrimRight(s))
  {
    var r := TrimRight(s);
    var j := |r|;
    LowerSlice(s, 0, j);
    assert s[0..j] == r;
    assert j > 0 ==> s[j - 1] == r[j - 1];
    TrimRightAt(Lower(s), j);
  }

  /** lower() and strip() commute. */
  lemma {:induction false} LowerTrim(g: string)
    ensures Trim(Lower(g)) == Lower(Trim(g))
  {
    LowerTrimLeft(g);
    LowerTrimRight(TrimLeft(g));
  }

  /** A genre and its normalised form fold to the same key. */
  lemma {:induction false} FoldNormalize(g: string)
    ensures Fold(Normalize(g)) == Fold(g)
  {
    var t := Trim(g);
    TitleFacts(t);
    LowerTrim(g);
    LowerSlice(t, 0, |t|);
    TrimStripped(Lower(t));
  }

  lemma CaseChar(c: char)
    ensures IsLetter(LowerChar(c)) == IsLetter(c)
    ensures LowerChar(LowerChar(c)) == LowerChar(c)
    ensures UpperChar(LowerChar(c)) == UpperChar(c)
  {
  }

  /** title() ignores the case the text was typed in: Title(s.lower()) == Title(s). */
  lemma TitleLower(s: string)
    ensures Title(Lower(s)) == Title(s)
  {
    var l := Lower(s);
    forall i | 0 <= i < |s|
      ensures Title(l)[i] == Title(s)[i]
    {
      CaseChar(s[i]);
      if i > 0 {
        CaseChar(s[i - 1]);
      }
    }
  }

  /** Lower-casing first does not change the key. */
  lemma FoldLower(s: string)
    ensures Fold(Lower(s)) == Fold(s)
  {
    forall i | 0 <= i < |s|
      ensures Lower(Lower(s))[i] == Lower(s)[i]
    {
      CaseChar(s[i]);
    }
    assert Lower(Lower(s)) == Lower(s);
  }

  /** Stripping first does not change the key: Fold(s.strip()) == Fold(s). */
  lemma {:induction false} FoldTrim(s: string)
    ensures Fold(Trim(s)) == Fold(s)
  {
    LowerTrim(s);
    TrimIdempotent(Lower(s));
  }

  // ---------------------------------------------------------------------------
  // str.split(sep) and its inverse, sep.join(parts)
  // ---------------------------------------------------------------------------

  /** str.split(sep): the pieces between separators, empty pieces included; never empty. */
  function Split(s: string, sep: char): (r: seq<string>)
    ensures |r| >= 1
    ensures forall i :: 0 <= i < |r| ==> sep !in r[i]
    decreases |s|
  {
    if |s| == 0 then [""]
    else
      var rest := Split(s[1..], sep);
      if s[0] == sep then [""] + rest
      else [[s[0]] + rest[0]] + rest[1..]
  }

  /** A split has one piece more than the text has separators; text without the separator is a
      single piece. */
  lemma {:induction false} SplitCount(s: string, sep: char)
    ensures |Split(s, sep)| == multiset(s)[sep] + 1
    ensures sep !in s ==> Split(s, sep) == [s]
    decreases |s|
  {
    if |s| > 0 {
      assert s == [s[0]] + s[1..];
      SplitCount(s[1..], sep);
    }
  }

  /** sep.join(parts). */
  function Join(parts: seq<string>, sep: char): string
    decreases |parts|
  {
    if |parts| == 0 then ""
    else if |parts| == 1 then parts[0]
    else parts[0] + [sep] + Join(parts[1..], sep)
  }

  lemma {:induction false} JoinCons(x: string, parts: seq<string>, sep: char)
    requires |parts| >= 1
    ensures Join([x + parts[0]] + parts[1..], sep) == x + Join(parts, sep)
  {
    if |parts| == 1 {
    } else {
      assert ([x + parts[0]] + parts[1..])[1..] == parts[1..];
    }
  }

  /** Joining the pieces of a split gives back the original text. */
  lemma {:induction false} JoinSplit(s: string, sep: char)
    ensures Join(Split(s, sep), sep) == s
    decreases |s|
  {
    if |s| > 0 {
      var rest := Split(s[1..], sep);
      JoinSplit(s[1..], sep);
      if s[0] == sep {
        assert ([""] + rest)[1..] == rest;
      } else {
        JoinCons([s[0]], rest, sep);
      }
    }
  }

  /** Text without the separator in front of anything: its split puts it at the head of the first piece. */
  lemma {:induction false} SplitPrefix(x: string, t: string, sep: char)
    requires sep !in x
    ensures Split(x + t, sep) == [x + Split(t, sep)[0]] + Split(t, sep)[1..]
    decreases |x|
  {
    if |x| > 0 {
      assert (x + t)[1..] == x[1..] + t;
      SplitPrefix(x[1..], t, sep);
      assert [x[0]] + (x[1..] + Split(t, sep)[0]) == x + Split(t, sep)[0];
    } else {
      assert x + t == t;
      assert x + Split(t, sep)[0] == Split(t, sep)[0];
      assert [Split(t, sep)[0]] + Split(t, sep)[1..] == Split(t, sep);
    }
  }

  /** Splitting a join of separator-free pieces gives back the pieces. */
  lemma {:induction false} SplitJoin(parts: seq<string>, sep: char)
    requires |parts| >= 1
    requires forall i :: 0 <= i < |parts| ==> sep !in parts[i]
    ensures Split(Join(parts, sep), sep) == parts
    decreases |parts|
  {
    if |parts| == 1 {
      SplitPrefix(parts[0], "", sep);
      assert parts[0] + "" == parts[0];
    } else {
      var t := [sep] + Join(parts[1..], sep);
      SplitJoin(parts[1..], sep);
      assert Split(t, sep) == [""] + parts[1..] by {
        assert t[1..] == Join(parts[1..], sep);
      }
      assert parts[0] + [sep] + Join(parts[1..], sep) == parts[0] + t;
      SplitPrefix(parts[0], t, sep);
      assert parts[0] + "" == parts[0];
    }
  }

  // ---------------------------------------------------------------------------
  // Decimal integers: int() and its inverse
  // ---------------------------------------------------------------------------

  predicate IsDigit(c: char) {
    '0' <= c <= '9'
  }

  predicate AllDigits(s: string) {
    forall i :: 0 <= i < |s| ==> IsDigit(s[i])
  }

  function DigitsValue(s: string): nat
    requires AllDigits(s)
    decreases |s|
  {
    if |s| == 0 then 0 else DigitsValue(s[..|s| - 1]) * 10 + (s[|s| - 1] as int - '0' as int)
  }

  /** The decimal digits of n, most significant first, with no leading zero. */
  function NatToString(n: nat): (r: string)
    ensures |r| > 0 && AllDigits(r)
    ensures DigitsValue(r) == n
    ensures r[0] != '0' || n == 0
    decreases n
  {
    if n < 10 then [('0' as int + n) as char]
    else
      var r := NatToString(n / 10) + [('0' as int + n % 10) as char];
      assert r[..|r| - 1] == NatToString(n / 10);
      r
  }

  /** str(n) for an integer. */
  function IntToString(n: int): string {
    if n < 0 then "-" + NatToString(-n) else NatToString(n)
  }

  /** The ASCII information separators U+001C..U+001F: str.strip() removes them, int() does not. */
  predicate IsSeparator(c: char) {
    28 <= c as int <= 31
  }

  predicate HasSeparator(s: string) {
    exists k :: 0 <= k < |s| && IsSeparator(s[k])
  }

  /** The whitespace int() skips around a number. It first turns each non-ASCII whitespace
      character into a space and then skips C's isspace() set (tab, line feed, vertical tab, form
      feed, carriage return and space): str.isspace() without the four separators. */
  predicate IsIntSpace(c: char) {
    IsSpace(c) && !IsSeparator(c)
  }

  /** The leading whitespace int() skips. */
  function IntTrimLeft(s: string): (r: string)
    ensures |r| <= |s| && r == s[|s| - |r|..]
    ensures forall k :: 0 <= k < |s| - |r| ==> IsIntSpace(s[k])
    decreases |s|
  {
    if |s| > 0 && IsIntSpace(s[0]) then IntTrimLeft(s[1..]) else s
  }

  /** The trailing whitespace int() skips. */
  function IntTrimRight(s: string): (r: string)
    ensures |r| <= |s| && r == s[..|r|]
    ensures forall k :: |r| <= k < |s| ==> IsIntSpace(s[k])
    decreases |s|
  {
    if |s| > 0 && IsIntSpace(s[|s| - 1]) then IntTrimRight(s[..|s| - 1]) else s
  }

  /** The text int() reads: s without the whitespace it skips at either end. */
  function IntTrim(s: string): string {
    IntTrimRight(IntTrimLeft(s))
  }

  /** int(s): the whitespace int() skips is dropped from both ends, then an optional sign and one
      or more digits must remain. A separator anywhere makes it fail; without one, int() reads
      exactly what strip() leaves. */
  function ParseInt(s: string): (r: Option<int>)
    ensures r.Some? ==> !HasSeparator(s) && |Trim(s)| > 0
    ensures r.Some? && AllDigits(Trim(s)) ==> r.value == DigitsValue(Trim(s))
    ensures r.Some? && |Trim(s)| > 0 && Trim(s)[0] == '-' ==>
      AllDigits(Trim(s)[1..]) && r.value == -(DigitsValue(Trim(s)[1..]) as int)
    ensures r.Some? && |Trim(s)| > 0 && Trim(s)[0] == '+' ==>
      AllDigits(Trim(s)[1..]) && r.value == DigitsValue(Trim(s)[1..])
    ensures r.None? <==>
      (HasSeparator(s)
       || |Trim(s)| == 0
       || (Trim(s)[0] in "+-" && (|Trim(s)| == 1 || !AllDigits(Trim(s)[1..])))
       || (Trim(s)[0] !in "+-" && !AllDigits(Trim(s))))
  {
    if HasSeparator(s) then
      SeparatorKept(s);
      AcceptedPlain(IntTrim(s));
      ParseSigned(IntTrim(s))
    else
      IntTrimAgrees(s);
      ParseSigned(IntTrim(s))
  }

  /** Without separators, int() skips exactly the whitespace strip() removes. */
  lemma {:induction false} IntTrimAgrees(s: string)
    requires !HasSeparator(s)
    ensures IntTrim(s) == Trim(s)
  {
    var l := IntTrimLeft(s);
    IntTrimLeftAgrees(s);
    SlicePlain(s, |s| - |l|, |s|);
    IntTrimRightAgrees(l);
    assert IntTrim(s) == IntTrimRight(l);
    assert Trim(s) == TrimRight(TrimLeft(s));
  }

  /** A slice of text without separators has none either. */
  lemma SlicePlain(s: string, i: nat, j: nat)
    requires i <= j <= |s| && !HasSeparator(s)
    ensures !HasSeparator(s[i..j])
  {
    var l := s[i..j];
    forall k | 0 <= k < |l|
      ensures !IsSeparator(l[k])
    {
      assert l[k] == s[i + k];
    }
  }

  /** int() never skips a separator, so one in s is still there after its whitespace is gone. */
  lemma {:induction false} SeparatorKept(s: string)
    requires HasSeparator(s)
    ensures HasSeparator(IntTrim(s))
  {
    var l := IntTrimLeft(s);
    var k :| 0 <= k < |s| && IsSeparator(s[k]);
    var off := |s| - |l|;
    assert s[k] == l[k - off];
    KeptRight(l, k - off);
  }

  /** A separator at position j survives the trailing whitespace int() skips. */
  lemma {:induction false} KeptRight(l: string, j: nat)
    requires j < |l| && IsSeparator(l[j])
    ensures HasSeparator(IntTrimRight(l))
  {
    var t := IntTrimRight(l);
    assert j < |t|;
    assert t[j] == l[j];
  }

  /** Text int() accepts is a sign and digits, so it holds no separator. */
  lemma {:induction false} AcceptedPlain(t: string)
    ensures ParseSigned(t).Some? ==> !HasSeparator(t)
  {
    if ParseSigned(t).Some? {
      forall j | 0 <= j < |t|
        ensures !IsSeparator(t[j])
      {
        if !AllDigits(t) && j > 0 {
          assert t[1..][j - 1] == t[j];
        }
      }
    }
  }

  /** Without separators, int() skips exactly the leading whitespace lstrip() removes. */
  lemma {:induction false} IntTrimLeftAgrees(s: string)
    requires !HasSeparator(s)
    ensures IntTrimLeft(s) == TrimLeft(s)
    decreases |s|
  {
    if |s| > 0 {
      assert !IsSeparator(s[0]);
      var p := s[1..];
      assert !HasSeparator(p) by {
        forall k | 0 <= k < |p|
          ensures !IsSeparator(p[k])
        {
          assert p[k] == s[k + 1];
        }
      }
      IntTrimLeftAgrees(p);
    }
  }

  /** Without separators, int() skips exactly the trailing whitespace rstrip() removes. */
  lemma {:induction false} IntTrimRightAgrees(s: string)
    requires !HasSeparator(s)
    ensures IntTrimRight(s) == TrimRight(s)
    decreases |s|
  {
    if |s| > 0 {
      assert !IsSeparator(s[|s| - 1]);
      var p := s[..|s| - 1];
      assert !HasSeparator(p) by {
        forall k | 0 <= k < |p|
          ensures !IsSeparator(p[k])
        {
          assert p[k] == s[k];
        }
      }
      IntTrimRightAgrees(p);
    }
  }

  /** The integer syntax int() accepts once the whitespace is gone. */
  function ParseSigned(t: string): (r: Option<int>)
    ensures r.Some? ==> |t| > 0
    ensures r.Some? && AllDigits(t) ==> r.value == DigitsValue(t)
    ensures r.Some? && |t| > 0 && t[0] == '-' ==> AllDigits(t[1..]) && r.value == -(DigitsValue(t[1..]) as int)
    ensures r.Some? && |t| > 0 && t[0] == '+' ==> AllDigits(t[1..]) && r.value == DigitsValue(t[1..])
    ensures r.None? <==>
      (|t| == 0
       || (t[0] in "+-" && (|t| == 1 || !AllDigits(t[1..])))
       || (t[0] !in "+-" && !AllDigits(t)))
  {
    if |t| == 0 then None
    else if t[0] == '+' || t[0] == '-' then
      var d := t[1..];
      if |d| > 0 && AllDigits(d) then
        var v: int := DigitsValue(d);
        Some(if t[0] == '-' then -v else v)
      else None
    else if AllDigits(t) then Some(DigitsValue(t))
    else None
  }

  /** int(str(n)) == n, and str(n) carries no whitespace for strip() to remove. */
  lemma IntRoundTrip(n: int)
    ensures Trim(IntToString(n)) == IntToString(n)
    ensures ParseInt(IntToString(n)) == Some(n)
  {
    var s := IntToString(n);
    IntStripped(n);
    TrimStripped(s);
    if n < 0 {
      assert s[1..] == NatToString(-n);
    }
  }

  lemma IntStripped(n: int)
    ensures Stripped(IntToString(n))
    ensures !HasSeparator(IntToString(n))
  {
    var s := IntToString(n);
    assert s[0] == '-' || IsDigit(s[0]);
    assert IsDigit(s[|s| - 1]);
    forall k | 0 <= k < |s|
      ensures !IsSeparator(s[k])
    {
      if n < 0 && k > 0 {
        assert s[k] == NatToString(-n)[k - 1];
      }
    }
  }

  /** int("") raises. */
  lemma ParseEmpty()
    ensures ParseInt("") == None
  {
  }

  /** Stripping before int() changes nothing for text without separators, in particular for every
      text int() accepts. */
  lemma {:induction false} ParseTrim(s: string)
    ensures !HasSeparator(s) ==> ParseInt(Trim(s)) == ParseInt(s)
  {
    if !HasSeparator(s) {
      var t := Trim(s);
      TrimPlain(s);
      TrimIdempotent(s);
      ParsePlain(s);
      ParsePlain(t);
    }
  }

  /** strip() keeps a slice of its argument, so it adds no separator. */
  lemma {:induction false} TrimPlain(s: string)
    requires !HasSeparator(s)
    ensures !HasSeparator(Trim(s))
  {
    var t := Trim(s);
    var i :| StripsTo(s, i, t);
    SlicePlain(s, i, i + |t|);
  }

  /** Without separators int() reads what strip() leaves. */
  lemma ParsePlain(s: string)
    requires !HasSeparator(s)
    ensures ParseInt(s) == ParseSigned(Trim(s))
  {
    IntTrimAgrees(s);
  }

  /** strip() removes a leading file separator but int() refuses it: int("\x1c5") raises while
      int("\x1c5".strip()) is 5. */
  lemma SeparatorRefused()
    ensures ParseInt([28 as char, '5']) == None
    ensures ParseInt(Trim([28 as char, '5'])) == Some(5)
  {
    var s := [28 as char, '5'];
    assert IsSeparator(s[0]);
    TrimSlice(s, 1, 2);
    assert s[1..2] == "5";
    IntRoundTrip(5);
    assert IntToString(5) == "5";
  }

}

=== FILE: unique.dfy ===
/** DataFrame.drop_duplicates() with its default settings: rows equal in every column are
    duplicates, and the first occurrence of each distinct row is the one kept, in table order. */
module Unique {

  predicate NoDup<T(==)>(s: seq<T>) {
    forall i, j :: 0 <= i < j < |s| ==> s[i] != s[j]
  }

  /** The position of the first occurrence of x in s. */
  function FirstIndex<T(==)>(s: seq<T>, x: T): (k: nat)
    requires x in s
    ensures k < |s| && s[k] == x && x !in s[..k]
    ensures forall j :: 0 <= j < k ==> s[j] != x
    decreases |s|
  {
    if s[0] == x then 0
    else
      var k := 1 + FirstIndex(s[1..], x);
      assert s[..k] == [s[0]] + s[1..][..k - 1];
      k
  }

  /** A first occurrence stays the first occurrence when more rows follow. */
  lemma FirstIndexPrefix<T>(p: seq<T>, q: seq<T>, x: T)
    requires x in p
    ensures x in p + q && FirstIndex(p + q, x) == FirstIndex(p, x)
  {
    var k := FirstIndex(p, x);
    var s := p + q;
    assert s[k] == x;
    var m := FirstIndex(s, x);
    assert m <= k;
    assert p[m] == x;
  }

  /** Removes every row equal to an earlier row. */
  function DropDuplicates<T(==)>(s: seq<T>): (r: seq<T>)
    ensures NoDup(r)
    ensures forall i :: 0 <= i < |r| ==> r[i] in s
    ensures forall i :: 0 <= i < |s| ==> s[i] in r
    ensures |r| <= |s|
    decreases |s|
  {
    if |s| == 0 then []
    else
      var d := DropDuplicates(s[..|s| - 1]);
      var x := s[|s| - 1];
      assert s == s[..|s| - 1] + [x];
      if x in d then d else d + [x]
  }

  /** A row survives de-duplication exactly when it occurs at all. */
  lemma DropMember<T>(s: seq<T>)
    ensures forall x :: x in DropDuplicates(s) <==> x in s
  {
    var d := DropDuplicates(s);
    forall x | x in s
      ensures x in d
    {
      var k :| 0 <= k < |s| && s[k] == x;
    }
    forall x | x in d
      ensures x in s
    {
      var k :| 0 <= k < |d| && d[k] == x;
    }
  }

  /** One more row: kept exactly when no equal row was kept before it. */
  lemma DropSnoc<T>(s: seq<T>, x: T)
    ensures DropDuplicates(s + [x]) ==
      if x in DropDuplicates(s) then DropDuplicates(s) else DropDuplicates(s) + [x]
  {
    assert (s + [x])[..|s + [x]| - 1] == s;
  }

  /** The ordering step for a row seen for the first time at the end of s + [x]. */
  lemma OrderSnoc<T>(p: seq<T>, x: T)
    requires x !in p
    requires forall i, j :: 0 <= i < j < |DropDuplicates(p)| ==>
      FirstIndex(p, DropDuplicates(p)[i]) < FirstIndex(p, DropDuplicates(p)[j])
    ensures forall i, j :: 0 <= i < j < |DropDuplicates(p) + [x]| ==>
      FirstIndex(p + [x], (DropDuplicates(p) + [x])[i]) < FirstIndex(p + [x], (DropDuplicates(p) + [x])[j])
  {
    var d := DropDuplicates(p);
    var r := d + [x];
    var s := p + [x];
    assert FirstIndex(s, x) == |p|;
    forall i, j | 0 <= i < j < |r|
      ensures FirstIndex(s, r[i]) < FirstIndex(s, r[j])
    {
      assert r[i] == d[i] && d[i] in p;
      FirstIndexPrefix(p, [x], r[i]);
      if j < |d| {
        assert r[j] == d[j] && d[j] in p;
        FirstIndexPrefix(p, [x], r[j]);
      }
    }
  }

  /** The kept rows appear in the order of their first occurrences. Together with the contract of
      DropDuplicates this pins the result down completely. */
  lemma {:induction false} DropOrder<T>(s: seq<T>)
    ensures forall i, j :: 0 <= i < j < |DropDuplicates(s)| ==>
      FirstIndex(s, DropDuplicates(s)[i]) < FirstIndex(s, DropDuplicates(s)[j])
    decreases |s|
  {
    if |s| > 0 {
      var n := |s| - 1;
      var p := s[..n];
      var x := s[n];
      var d := DropDuplicates(p);
      assert s == p + [x];
      DropOrder(p);
      DropSnoc(p, x);
      if x in d {
        forall y | y in d
          ensures FirstIndex(s, y) == FirstIndex(p, y)
        {
          FirstIndexPrefix(p, [x], y);
        }
      } else {
        OrderSnoc(p, x);
      }
    }
  }

  /** A table without repeated rows passes through unchanged. */
  lemma {:induction false} DropNoDup<T>(s: seq<T>)
    requires NoDup(s)
    ensures DropDuplicates(s) == s
    decreases |s|
  {
    if |s| > 0 {
      var p := s[..|s| - 1];
      assert NoDup(p);
      DropNoDup(p);
      assert s[|s| - 1] !in p;
      assert s == p + [s[|s| - 1]];
    }
  }

  /** Dropping duplicates twice is dropping them once. */
  lemma DropIdempotent<T>(s: seq<T>)
    ensures DropDuplicates(DropDuplicates(s)) == DropDuplicates(s)
  {
    DropNoDup(DropDuplicates(s));
  }

  /** Rows all of which already occur earlier add nothing. */
  lemma {:induction false} DropAbsorb<T>(s: seq<T>, t: seq<T>)
    requires forall x :: x in t ==> x in s
    ensures DropDuplicates(s + t) == DropDuplicates(s)
    decreases |t|
  {
    if |t| == 0 {
      assert s + t == s;
    } else {
      var u := t[..|t| - 1];
      var x := t[|t| - 1];
      assert forall y :: y in u ==> y in t;
      DropAbsorb(s, u);
      AppendSplit(s, t);
      assert x in t && x in s;
      var k :| 0 <= k < |s| && s[k] == x;
      assert (s + u)[k] == x;
      DropSnoc(s + u, x);
    }
  }

  /** A non-empty sequence is its front followed by its last element. */
  lemma LastSplit<T>(s: seq<T>)
    requires |s| > 0
    ensures s == s[..|s| - 1] + [s[|s| - 1]]
  {
  }

  /** A non-empty tail is its front followed by its last row. */
  lemma AppendSplit<T>(a: seq<T>, t: seq<T>)
    requires |t| > 0
    ensures a + t == (a + t[..|t| - 1]) + [t[|t| - 1]]
  {
    assert t == t[..|t| - 1] + [t[|t| - 1]];
  }

  /** Two tables that de-duplicate alike still do so after the same row is appended to both. */
  lemma SnocAlike<T>(a: seq<T>, b: seq<T>, x: T)
    requires DropDuplicates(a) == DropDuplicates(b)
    ensures DropDuplicates(a + [x]) == DropDuplicates(b + [x])
  {
    DropSnoc(a, x);
    DropSnoc(b, x);
  }

  /** Duplicates among the first rows may be dropped before or after more rows are appended. */
  lemma {:induction false} DropAppend<T>(s: seq<T>, t: seq<T>)
    ensures DropDuplicates(DropDuplicates(s) + t) == DropDuplicates(s + t)
    decreases |t|
  {
    var d := DropDuplicates(s);
    if |t| == 0 {
      assert d + t == d && s + t == s;
      DropIdempotent(s);
    } else {
      var u := t[..|t| - 1];
      var x := t[|t| - 1];
      DropAppend(s, u);
      SnocAlike(d + u, s + u, x);
      AppendSplit(d, t);
      AppendSplit(s, t);
    }
  }

  /** Appending a row keeps a prefix a prefix. */
  lemma PrefixSnoc<T>(a: seq<T>, c: seq<T>, x: T)
    requires |c| <= |a| && a[..|c|] == c
    ensures |c| <= |a + [x]| && (a + [x])[..|c|] == c
  {
    assert (a + [x])[..|c|] == a[..|c|];
  }

  /** The rows before a cut keep their de-duplicated form as a prefix of the whole result. */
  lemma {:induction false} DropPrefix<T>(s: seq<T>, t: seq<T>)
    ensures |DropDuplicates(s)| <= |DropDuplicates(s + t)|
    ensures DropDuplicates(s + t)[..|DropDuplicates(s)|] == DropDuplicates(s)
    decreases |t|
  {
    if |t| == 0 {
      assert s + t == s;
    } else {
      var u := t[..|t| - 1];
      var x := t[|t| - 1];
      DropPrefix(s, u);
      DropSnoc(s + u, x);
      PrefixSnoc(DropDuplicates(s + u), DropDuplicates(s), x);
      AppendSplit(s, t);
    }
  }

  /** The single pass pandas makes: a set of rows seen so far, and each row kept on first sight. */
  method DropDuplicatesScan<T(==)>(s: seq<T>) returns (r: seq<T>)
    ensures r == DropDuplicates(s)
  {
    var seen: set<T> := {};
    r := [];
    var i := 0;
    while i < |s|
      invariant 0 <= i <= |s|
      invariant r == DropDuplicates(s[..i])
      invariant forall x :: x in seen <==> x in r
    {
      assert s[..i + 1][..i] == s[..i];
      if s[i] !in seen {
        r := r + [s[i]];
        seen := seen + {s[i]};
      }
      i := i + 1;
    }
    assert s[..i] == s;
  }
}
